=== FILE: README.md ===
# Spoke texting core — a Dafny model

Spoke is a campaign texting tool: texters work through assignments of
campaign contacts, send scripted messages, and record survey answers. This
project models four pieces of its decision logic and proves properties of
them:

- **Contact selection** (`ContactSelection`, `Contacts`, `Text`):
  `getContacts` builds the query that lists or counts the contacts of a
  texter's assignment. The model builds the same query as where-clauses plus
  an ordering and runs it over a table given as a sequence of rows. It covers:
  - the contact-id short-circuit;
  - the past-due rule with its one-day grace;
  - the default status choice and the comma-separated status filter;
  - the timezone and opt-out filters;
  - the two listing orders, and count mode.
- **Survey steps and answers** (`InteractionSteps`): the walk through a
  campaign's question script that follows the recorded answers. It also
  covers building the answer map from stored answers, and clearing the
  children's answers when an answer changes.
- **The texter's contact screen** (`TexterContactState`):
  - whether the screen starts disabled or only marked not sendable;
  - how a failed send is classified;
  - which status buttons show;
  - how recorded answers are split into saves and deletions on submit.
- **Roles** (`Permissions`): the role hierarchy as a ranking in which
  unknown roles rank -1, and the "highest role" / "has role" checks built on
  it.
- **Contact toolbar** (`ContactToolbar`): how the contact's clock offset and
  daylight-saving flag are chosen, the location line, and the timezone whose
  daylight-saving rules the clock follows.

JavaScript truthiness is spelled out in `Values`: a missing value is `None`.
A string counts only when it is present and non-empty; a number only when
present and non-zero; a boolean only when it is `true`.

Helpers whose code is not part of this model are parameters:
- `getOffsets` and `defaultTimezoneIsBetweenTextingHours` are functions of
  the texting-hours configuration;
- the contact's "between texting hours" answer is a boolean;
- `getTopMostParent` is the `root` argument;
- `interactionStepForId` is `stepForId`;
- `getChildren` is a list of child ids;
- `getContactTimezone`, `getLocalTime(...).format('LT')` and the process's
  default reference timezone are function and value parameters;
- the current time is `now`, in milliseconds.

Behaviour of the code that the model keeps as written:
- `hasRole(r, [])` is true for a role `r` that is not in the hierarchy. The
  missing highest role and the unknown role both have index -1.
- For a rejected send (status 400) other than an assignment change, the
  handler builds a snackbar message but never uses it. Only `disabled` and
  `disabledText` change.
- A screen that starts "not sendable but displayed" can then be disabled by a
  rejected send, so both flags end up set.
- Changing an answer clears the answers of the steps `getChildren` returns;
  the code of `getChildren` is not modelled. It also adds the step's own
  entry when it was missing. Whatever `getChildren` returns, the walk cannot
  reach deeper steps of the old branch once it stops at a cleared child.
- The location line has two spaces after the comma (`"Springfield,  IL"`).
- Every rendered send button and dialog with a `disabled` binding
  (src/containers/AssignmentTexterContact/index.jsx lines 589, 601, 677, 738
  and 813) is bound to `disabled || notSendableButForceDisplay`;
  `TexterContactState.SendControlsDisabled` is that expression. The handlers
  behind them, `handleMessageFormSubmit` and `handleOptOut`, check only
  `disabled` (`TexterContactState.BeginSubmit`). The Enter key calls them
  without going through the buttons, and the bulk-send button has no
  `disabled` binding. So a contact that is only marked not sendable, because
  unsendable contacts are displayed, can still be sent to
  (`TexterContactState.InitialSubmitGuard`).

## Model

| member | source | states |
|---|---|---|
| Text.Split | src/server/api/assignment.js:17 | `split(',')` always gives at least one piece, no piece contains a comma, and joining the pieces with commas gives back the input |
| Text.SplitUnique | src/server/api/assignment.js:17 | any comma-free list of pieces that joins to `s` is `Split(s)`: the split is the only inverse of the join |
| Text.SplitWithoutComma | src/server/api/assignment.js:17 | a status value without a comma splits into itself alone |
| Text.LexLeTotal | src/server/api/assignment.js:94-96 | any two status strings are comparable in the ordering `message_status DESC` uses |
| Text.LexLeAntisymmetric | src/server/api/assignment.js:94-96 | two strings each ordered before the other are equal |
| Text.LexLeTransitive | src/server/api/assignment.js:94-96 | the string ordering is transitive |
| Contacts.PrecedesTotal | src/server/api/assignment.js:94-96 | under both listing keys (status descending, then update time descending or ascending), of two rows one may always come first |
| Contacts.PrecedesTransitive | src/server/api/assignment.js:94-96 | the listing key order is transitive |
| Contacts.Insert | src/server/api/assignment.js:94-96 | inserting a row into an ordered listing keeps it ordered and adds exactly that row |
| Contacts.Sort | src/server/api/assignment.js:92-98 | the listing is ordered by the key and is a rearrangement of the selected rows |
| Contacts.SortedPair | src/server/api/assignment.js:94-96 | an ordered listing of two rows, one strictly ahead of the other, is that pair in key order |
| ContactSelection.AddStatusClause | src/server/api/assignment.js:5-20 | a falsy filter adds no clause; "needsMessageOrResponse" admits exactly needsResponse and needsMessage; any other string admits exactly the statuses in its comma split |
| ContactSelection.Where | src/server/api/assignment.js:55-57 | a where-clause keeps each row as many times as it is stored when every clause holds for it, and drops it otherwise |
| ContactSelection.Execute | src/server/api/assignment.js:92-100 | a query returns exactly the rows it admits, with their multiplicities, ordered by the query's key |
| ContactSelection.TextingHoursConfig | src/server/api/assignment.js:31-48 | the configuration carries the organization's hours, and the campaign's hours and timezone exactly when the campaign overrides the organization |
| ContactSelection.TimezoneClauses | src/server/api/assignment.js:60-75 | `validTimezone` true admits the in-hours offsets plus the empty offset iff the default timezone is in hours; false admits the out-of-hours offsets plus the empty offset iff it is not; any other value admits every row |
| ContactSelection.OptOutClauses | src/server/api/assignment.js:87-89 | a present `isOptedOut` key admits exactly the rows with that flag; an absent key admits every row |
| ContactSelection.FilterClauses | src/server/api/assignment.js:55-90 | a filter without a contact id admits exactly the assignment's rows that pass the timezone, status and opt-out tests |
| ContactSelection.EffectiveStatusMeaning | src/server/api/assignment.js:77-85 | the status string handed to the helper is always truthy and admits needsResponse, plus needsMessage unless past due, when the filter names no status; otherwise it admits what the filter names |
| ContactSelection.ContactsQuery | src/server/api/assignment.js:22-101 | every query `getContacts` builds starts with the assignment clause |
| ContactSelection.GetContacts | src/server/api/assignment.js:22-101 | every returned row belongs to the assignment, and the result is a sub-multiset of the table |
| ContactSelection.CountContacts | src/server/api/assignment.js:112-118 | the count-mode result has as many rows as the listing for the same filter |
| ContactSelection.ContactsQueryAdmitsSelected | src/server/api/assignment.js:22-90 | the built query admits a row iff the row is selected: the assignment's row with the given contact id, or, when not suppressed as past due, a row of the assignment that passes every filter the caller set |
| ContactSelection.GetContactsSelectsExactly | src/server/api/assignment.js:22-101 | each stored row is returned exactly as often as it is stored when selected, and never otherwise |
| ContactSelection.ListOrdering | src/server/api/assignment.js:92-98 | count mode leaves rows unordered; a listing orders by update time newest first exactly for the "convo" filter, oldest first otherwise |
| ContactSelection.ListingOrder | src/server/api/assignment.js:92-98 | without a contact id, a listing is ordered by status descending, then by update time: newest first for "convo", oldest first otherwise |
| ContactSelection.ContactIdShortCircuit | src/server/api/assignment.js:23-28 | with a contact id the result is the assignment's rows with that id, in table order, whatever the rest of the filter, the campaign, the time or the mode |
| ContactSelection.PastDue | src/server/api/assignment.js:37-38 | a campaign can be past due only when its due date is set |
| ContactSelection.PastDueBoundary | src/server/api/assignment.js:37-38 | the grace period is one day (86 400 000 ms): a campaign is not past due exactly one day after its due date, is one millisecond later, and stays past due from then on |
| ContactSelection.NoDueDateNeverPastDue | src/server/api/assignment.js:37 | a campaign without a due date is never past due |
| ContactSelection.PastDueNeedsMessageIsEmpty | src/server/api/assignment.js:51-53 | a past-due campaign asked for needsMessage rows, without including past due, returns nothing |
| ContactSelection.IncludePastDueKeepsNewMessages | src/server/api/assignment.js:36-53 | with `includePastDue`, a needsMessage request returns exactly the assignment's needsMessage rows that pass the filter's timezone and opt-out tests, past due or not |
| ContactSelection.NoFilterSelectsWholeAssignment | src/server/api/assignment.js:55-59 | without a filter every row of the assignment is returned, and nothing else |
| ContactSelection.DefaultStatusChoice | src/server/api/assignment.js:77-85 | a filter without a status selects the needsResponse rows, and the needsMessage rows only when the campaign is not past due, among the rows that pass the filter's timezone and opt-out tests |
| ContactSelection.ExplicitNeedsMessageOrResponse | src/server/api/assignment.js:14-15 | asking for "needsMessageOrResponse" selects the rows of both statuses that pass the filter's timezone and opt-out tests, even when past due |
| ContactSelection.UnrecognisedStatusSelectsNothing | src/server/api/assignment.js:16-18 | a comma-free status value other than "needsMessageOrResponse" that no stored row carries yields an empty result, not an error |
| ContactSelection.EmptyOffsetInExactlyOneView | src/server/api/assignment.js:60-75 | when the offset lists from `getOffsets` do not contain the empty offset, a missing offset is admitted by exactly one of `validTimezone` true and false |
| ContactSelection.EmptyOffsetContactInExactlyOneSelection | src/server/api/assignment.js:60-75 | when the offset lists from `getOffsets` do not contain the empty offset, a stored row of the assignment without an offset that passes the filter's status and opt-out tests is selected by exactly one of the filter's two timezone views |
| ContactSelection.OptOutKeyFilters | src/server/api/assignment.js:87-89 | a present `isOptedOut` key, even false, keeps exactly the rows with that flag among those the open filter returns |
| ContactSelection.ConvoSelectsConversations | src/server/api/assignment.js:16-18 | asking for "convo" returns every conversation row of the assignment that passes the filter's timezone and opt-out tests, as often as it is stored, and drops every other row, past due or not |
| ContactSelection.TwoSelectedRows | src/server/api/assignment.js:55-98 | a listing of a two-row table whose rows are both selected holds exactly those two rows, whatever the table order |
| ContactSelection.ConvoListsNewestFirst | src/server/api/assignment.js:93-94 | two rows of one status that a "convo" request (with any timezone or opt-out setting) selects are listed most recently updated first, whatever their table order |
| ContactSelection.DefaultListsOldestFirst | src/server/api/assignment.js:95-96 | for any other request without a contact id, or no filter, two selected rows of one status are listed longest untouched first, whatever their table order |
| Permissions.IndexOf | src/lib/permissions.js:3 | `indexOf` is -1 exactly for an absent name, and otherwise the first position holding it |
| Permissions.RanksOfListedRoles | src/lib/permissions.js:1 | the listed roles rank SUSPENDED 0, TEXTER 1, SUPERVOLUNTEER 2, ADMIN 3, OWNER 4 |
| Permissions.IsRoleGreater | src/lib/permissions.js:3 | only a listed role can be greater than another, never than itself, and every listed role is greater than every unlisted one |
| Permissions.HasRoleAtLeast | src/lib/permissions.js:5 | every role is at least itself and at least any unlisted role; only a listed role is at least a listed one |
| Permissions.HasRole | src/lib/permissions.js:9 | with no roles exactly the unlisted roles are held; with some, a role is held iff the last role after sorting is at least it |
| Permissions.IsRoleGreaterStrictOrder | src/lib/permissions.js:3 | `isRoleGreater` is irreflexive, asymmetric and transitive |
| Permissions.HasRoleAtLeastPreorder | src/lib/permissions.js:3-5 | `hasRoleAtLeast` is reflexive, transitive and total, and is the negation of `isRoleGreater` with the arguments swapped |
| Permissions.UnknownRoleRanksLowest | src/lib/permissions.js:1-5 | an unlisted role ranks -1, below SUSPENDED: it is at least no listed role, and every listed role is at least it |
| Permissions.OwnerTopSuspendedBottom | src/lib/permissions.js:1-5 | OWNER is at least every role, and every listed role is at least SUSPENDED |
| Permissions.GetHighestRole | src/lib/permissions.js:7 | the highest role exists iff the user has roles, and is one of them |
| Permissions.HasRoleEmpty | src/lib/permissions.js:5-9 | with no roles, no listed role is held |
| Permissions.HasRoleUnknownOnEmpty | src/lib/permissions.js:5-9 | with no roles, an unlisted role is still held |
| Permissions.HasRoleWitness | src/lib/permissions.js:7-9 | holding a listed role, or any role when the user has some, means one of the user's roles ranks at least as high |
| Permissions.HasRoleDownwardClosed | src/lib/permissions.js:5-9 | holding a role implies holding every role it is at least |
| InteractionSteps.FindOption | src/containers/AssignmentTexterContact/index.jsx:274 | `find` gives the first answer option whose value equals the answer, and none exactly when no option does |
| InteractionSteps.NextStepId | src/containers/AssignmentTexterContact/index.jsx:272-282 | no truthy answer gives no next step, and any next step is named by an answer option equal to the answer |
| InteractionSteps.NextStepIdFirstMatch | src/containers/AssignmentTexterContact/index.jsx:272-282 | for a truthy answer, no option equal to it gives no next step, and otherwise the next step is that of the first option equal to it, whatever later options say |
| InteractionSteps.Walk | src/containers/AssignmentTexterContact/index.jsx:270-283 | the walk starts at the given step, each step leads to the next through its answer's first matching option, and it ends at a step with nowhere to go (within the step bound) |
| InteractionSteps.AvailableSteps | src/containers/AssignmentTexterContact/index.jsx:264-286 | the available steps are empty exactly when there is no top-most step, start with it otherwise, and form the walk above |
| InteractionSteps.CurrentInteractionStep | src/containers/AssignmentTexterContact/index.jsx:214 | the current step is the last available step, and missing exactly when none is available |
| InteractionSteps.WalkIsUnique | src/containers/AssignmentTexterContact/index.jsx:270-283 | any path that starts at the step, moves only along answered options and stops where there is nowhere to go is the walk |
| InteractionSteps.UnansweredRootOnly | src/containers/AssignmentTexterContact/index.jsx:272-282 | without a truthy answer for the top-most step only that step is available |
| InteractionSteps.EmptyResponsesRootOnly | src/containers/AssignmentTexterContact/index.jsx:268-282 | with no answers recorded only the top-most step is available |
| InteractionSteps.LastIndexFor | src/containers/AssignmentTexterContact/index.jsx:290-292 | finds the last stored answer for a step, and none exactly when the step has none |
| InteractionSteps.InitialQuestionResponses | src/containers/AssignmentTexterContact/index.jsx:288-295 | the answer map has an entry exactly for each step with a stored answer, holding the value of its last stored answer |
| InteractionSteps.ClearPresent | src/containers/AssignmentTexterContact/index.jsx:509-514 | listed children with an entry are set to null, no key is added or removed, and every other entry is unchanged |
| InteractionSteps.ChangeResponse | src/containers/AssignmentTexterContact/index.jsx:504-514 | the step's answer is set (then cleared if the step is its own child), the children's present answers become null, no other key is added and no other entry changes |
| InteractionSteps.ChangeResponseStopsAtChildren | src/containers/AssignmentTexterContact/index.jsx:504-514 | after a change no child keeps a truthy answer, so a walk reaching a child stops there |
| InteractionSteps.ChangeRootAnswerResetsBranch | src/containers/AssignmentTexterContact/index.jsx:504-514 | answering the top-most step with an option that leads to a child makes the available steps exactly the top-most step and that child |
| InteractionSteps.LinearScriptRootAnswered | src/containers/AssignmentTexterContact/index.jsx:264-286 | on the three-step script, answering the top-most step makes the first two steps available |
| InteractionSteps.LinearScriptBothAnswered | src/containers/AssignmentTexterContact/index.jsx:264-286 | on the three-step script, answering the first two steps makes all three available |
| InteractionSteps.LinearScriptRootChanged | src/containers/AssignmentTexterContact/index.jsx:504-514 | on the three-step script, re-answering the top-most step clears the second step's answer and leaves two steps available |
| InteractionSteps.LinearScriptWalk | src/containers/AssignmentTexterContact/index.jsx:264-286 | on a three-step script the available steps grow with each answer and shrink back when the first answer is changed |
| TexterContactState.InitialViewState | src/containers/AssignmentTexterContact/index.jsx:170-197 | a changed assignment or archived campaign disables the screen with the "assignment has changed" snackbar; otherwise an opted-out or out-of-hours contact disables it, or only marks it not sendable when forced display is asked for; the two flags are never both set |
| TexterContactState.InitialDisabledTextPriority | src/containers/AssignmentTexterContact/index.jsx:183-197 | opt-out is reported before texting hours, and a sendable contact is not disabled |
| TexterContactState.HandleSendMessageError | src/containers/AssignmentTexterContact/index.jsx:348-374 | 402 goes back to the todos and changes nothing; 400 "assignment has changed" shows it with a "Back to todos" action and leaves `disabled` alone; any other 400 disables with the message and skips the contact; anything else shows "Something went wrong!" and logs |
| TexterContactState.SendErrorNeverEnables | src/containers/AssignmentTexterContact/index.jsx:348-374 | handling a send error never re-enables the screen, and changes `disabled` only for a 400 other than an assignment change |
| TexterContactState.ForcedDisplayThenRejectedSend | src/containers/AssignmentTexterContact/index.jsx:360-366 | a screen first only marked not sendable ends up with both flags set after a rejected send |
| TexterContactState.InitialSendControls | src/containers/AssignmentTexterContact/index.jsx:170-202 | the send buttons, inert while `disabled` or `notSendableButForceDisplay` is set, start inert exactly for a changed assignment, an archived campaign, an opted-out contact or a contact outside texting hours, whether or not unsendable contacts are displayed |
| TexterContactState.SendErrorKeepsControlsDisabled | src/containers/AssignmentTexterContact/index.jsx:348-374 | a send error never makes inert send buttons usable, and makes usable ones inert only for a 400 other than an assignment change |
| TexterContactState.BeginSubmit | src/containers/AssignmentTexterContact/index.jsx:376-383 | a message submission is stopped exactly when the screen is `disabled`, and one that goes ahead disables the screen and changes nothing else |
| TexterContactState.SubmitOnlyOnce | src/containers/AssignmentTexterContact/index.jsx:376-383 | a second submission right after one that went ahead is stopped, and the send buttons are then inert |
| TexterContactState.InitialSubmitGuard | src/containers/AssignmentTexterContact/index.jsx:244-257 | on the starting screen a submission (as from the Enter key) is stopped exactly for a changed assignment, an archived campaign, or an opted-out or out-of-hours contact not displayed anyway; a displayed one has inert send buttons yet can still be submitted |
| TexterContactState.NeedsResponseToggle | src/containers/AssignmentTexterContact/index.jsx:643-659 | Reopen shows exactly for closed contacts, Skip Reply exactly for needsResponse |
| TexterContactState.ShowsSendArrow | src/containers/AssignmentTexterContact/index.jsx:805-818 | the arrow never shows for needsMessage or closed contacts, never beside Reopen, and beside a toggle only beside Skip Reply |
| TexterContactState.StatusButtons | src/containers/AssignmentTexterContact/index.jsx:805-818 | the arrow send button shows for every status except needsMessage and closed; reopening a closed contact brings the arrow and Skip Reply |
| TexterContactState.PartitionResponses | src/containers/AssignmentTexterContact/index.jsx:403-419 | every key lands in exactly one list: a truthy answer as a save for the contact with its value, any other answer as a deletion |
| TexterContactState.SurveyMutations | src/containers/AssignmentTexterContact/index.jsx:420-425 | saves are sent iff there are any, deletions iff there are any, and saves go first |
| ContactToolbar.ResolveClock | src/components/ContactToolbar/index.jsx:37-56 | no location gives offset 0 and no daylight saving; a campaign-adjusted timezone replaces both fields as they are; otherwise a non-zero offset and a true flag come from the location's timezone, and the defaults stay |
| ContactToolbar.FormattedLocation | src/components/ContactToolbar/index.jsx:58-62 | city and state give `city + ", " + " " + state`; no city gives `" " + state`; no state gives `city + " "` |
| ContactToolbar.DstReferenceTimezone | src/components/ContactToolbar/index.jsx:64-66 | the campaign's timezone when it overrides the organization's hours, the process default otherwise |
| ContactToolbar.OverrideIgnoresProcessDefault | src/components/ContactToolbar/index.jsx:64-68 | when the campaign overrides the organization's hours, the process default reference timezone does not affect the titles |
| ContactToolbar.Titles | src/components/ContactToolbar/index.jsx:79-90 | the time and location titles show exactly when there is a location, showing the formatted local time and the location line |

## Left out

- The GraphQL resolvers in src/server/api/assignment.js:103-136: database fetches and caching. `CountContacts` stands for the `contactsCount` resolver's count.
- The query builder itself. SQL is modelled as a filter and sort over a sequence of rows. A query without an ordering returns rows in table order, where SQL leaves the order unspecified.
- The code of `getOffsets`, `defaultTimezoneIsBetweenTextingHours`, `isBetweenTextingHours`, `getContactTimezone`, `getLocalTime`, `getProcessEnvDstReferenceTimezone`, `getTopMostParent`, `getChildren` and `interactionStepForId`. Their files are not part of this model, so their results are parameters.
- The message-text update after an answer change: `handleQuestionResponseChange` ends by passing the chosen option's script through `applyScript` to `handleChangeScript` (src/containers/AssignmentTexterContact/index.jsx:516-520). `ChangeResponse` models only the answer map, and the script update is not modelled.
- React rendering, styles, key listeners, timers, router pushes and the mutation calls. The send-error handler reports navigation, skipping and logging as an `Effect` instead.
- Permissions.GetHighestRole: does not say that the result is the highest-ranked role. `roles.sort(isRoleGreater)` passes a boolean comparator, so the order it leaves depends on the JavaScript engine. That order is the `arranged` parameter.
- Permissions.HasRole: `roles.sort` reorders the caller's array in place, so `getHighestRole` and `hasRole` leave the user's roles in the sorted order. The model returns only the result and does not model that side effect on the caller's list.
- ContactSelection.CountContacts: on the past-due path `getContacts` returns a plain empty array, and the count of that comes from `r.getCount`, whose code is not part of this model. The model counts it as 0.
- InteractionSteps.Walk: bounded by `fuel` steps. The source loop has no bound and does not end on a cyclic script. Properties are stated for walks that stop within the bound.
- Contacts.Sort: compares `message_status` character by character, as a binary collation does. A database collation with other rules is not modelled.
- ContactSelection.GetContacts: `isOptedOut` with a `null` value is not modelled. The filter's key is either absent or a boolean.
- TexterContactState.PartitionResponses: the order of `Object.keys` is the `keys` parameter. JavaScript lists integer-like keys first, then the others in insertion order.
- ContactToolbar.FormattedLocation: city and state are strings. An `undefined` city or state, which JavaScript would render as "undefined", is not modelled.
- ContactToolbar.ResolveClock: the time is not computed. `getLocalTime` is a parameter, so only the inputs it receives are stated.
- The organization's hours and `now` are plain integers. A set due date is a `Date`, always truthy, and stands as its millisecond value; date parsing by `Number(...)` is not modelled.

=== FILE: contact_selection.dfy ===
/**
  Selection of an assignment's contacts (`getContacts`). The source builds an
  SQL query over `campaign_contact`; the model builds the same query as a
  list of where-clauses plus an ordering, and executes it over a table given
  as a sequence of rows.

  The offset partition and the "default timezone is within texting hours"
  answer come from helpers whose code is not part of this model; they are
  taken as functions of the texting-hours configuration. The current time is
  the parameter `now` (milliseconds).
 */
module ContactSelection {
  import opened Values
  import opened Text
  import opened Contacts

  /** The status filter that asks for both needsMessage and needsResponse rows. */
  const NeedsMessageOrResponse: string := "needsMessageOrResponse"

  /** A campaign is past due one day after its due date. */
  const PastDueGraceMillis: int := 24 * 60 * 60 * 1000

  /**
    The caller's filter. `includePastDue` is its truthiness; `validTimezone`
    is `None` for `null`/`undefined`; `isOptedOut` is `None` when the key is
    absent from the filter object.
   */
  datatype ContactsFilter = ContactsFilter(
    contactId: Option<string>,
    includePastDue: bool,
    messageStatus: Option<string>,
    validTimezone: Option<bool>,
    isOptedOut: Option<bool>)

  datatype Organization = Organization(
    textingHoursStart: int,
    textingHoursEnd: int,
    textingHoursEnforced: bool)

  /**
    `dueBy` is the due date in milliseconds, `None` when not set. A set due
    date is a `Date` object, which is truthy whatever instant it holds, so
    `Some` is exactly the truthy case.
   */
  datatype Campaign = Campaign(
    dueBy: Option<int>,
    overrideOrganizationTextingHours: bool,
    textingHoursStart: int,
    textingHoursEnd: int,
    textingHoursEnforced: bool,
    timezone: string)

  datatype CampaignTextingHours = CampaignTextingHours(
    textingHoursStart: int,
    textingHoursEnd: int,
    textingHoursEnforced: bool,
    timezone: string)

  /** The configuration handed to the texting-hours helpers. */
  datatype HoursConfig = HoursConfig(
    textingHoursStart: int,
    textingHoursEnd: int,
    textingHoursEnforced: bool,
    campaignTextingHours: Option<CampaignTextingHours>)

  /** `getOffsets(config)`: offsets currently inside and outside texting hours. */
  datatype OffsetPartition = OffsetPartition(validOffsets: seq<string>, invalidOffsets: seq<string>)

  /**
    The organization's texting hours, with the campaign's own hours and
    timezone attached exactly when the campaign overrides the organization.
   */
  function TextingHoursConfig(organization: Organization, campaign: Campaign): (config: HoursConfig)
    ensures config.campaignTextingHours.Some? <==> campaign.overrideOrganizationTextingHours
    ensures config.textingHoursStart == organization.textingHoursStart
    ensures config.textingHoursEnd == organization.textingHoursEnd
    ensures config.textingHoursEnforced == organization.textingHoursEnforced
    ensures config.campaignTextingHours.Some? ==>
      var hours := config.campaignTextingHours.value;
      hours.textingHoursStart == campaign.textingHoursStart && hours.textingHoursEnd == campaign.textingHoursEnd &&
      hours.textingHoursEnforced == campaign.textingHoursEnforced && hours.timezone == campaign.timezone
  {
    HoursConfig(
      organization.textingHoursStart, organization.textingHoursEnd, organization.textingHoursEnforced,
      if campaign.overrideOrganizationTextingHours then
        Some(CampaignTextingHours(
          campaign.textingHoursStart, campaign.textingHoursEnd, campaign.textingHoursEnforced, campaign.timezone))
      else None)
  }

  /**
    More than the grace period has passed since a set due date; the exact
    boundary is stated in `PastDueBoundary`.
   */
  predicate PastDue(campaign: Campaign, now: int): (past: bool)
    ensures past ==> campaign.dueBy.Some?
  {
    campaign.dueBy.Some? && campaign.dueBy.value + PastDueGraceMillis < now
  }

  // ---------------------------------------------------------------------------
  // Queries

  datatype Clause =
    | AssignmentIs(assignmentId: string)
    | IdIs(id: string)
    | StatusIn(statuses: seq<string>)
    | OffsetIn(offsets: seq<string>)
    | OptedOutIs(optedOut: bool)

  predicate Holds(clause: Clause, c: Contact) {
    match clause
    case AssignmentIs(a) => c.assignmentId == a
    case IdIs(id) => c.id == id
    case StatusIn(statuses) => c.messageStatus in statuses
    case OffsetIn(offsets) => c.timezoneOffset in offsets
    case OptedOutIs(b) => c.isOptedOut == b
  }

  predicate AllHold(clauses: seq<Clause>, c: Contact) {
    forall i :: 0 <= i < |clauses| ==> Holds(clauses[i], c)
  }

  datatype Ordering = Unordered | StatusDescUpdatedDesc | StatusDescUpdatedAsc

  /** `NoRows` is the plain empty list the source returns instead of a query. */
  datatype Query = NoRows | Select(clauses: seq<Clause>, ordering: Ordering)

  predicate Admits(q: Query, c: Contact) {
    q.Select? && AllHold(q.clauses, c)
  }

  lemma AllHoldConcat(a: seq<Clause>, b: seq<Clause>, c: Contact)
    ensures AllHold(a + b, c) <==> AllHold(a, c) && AllHold(b, c)
  {
    if AllHold(a, c) && AllHold(b, c) {
      forall i | 0 <= i < |a + b| ensures Holds((a + b)[i], c) {
        if i >= |a| {
          assert (a + b)[i] == b[i - |a|];
        }
      }
    }
    if AllHold(a + b, c) {
      forall i | 0 <= i < |a| ensures Holds(a[i], c) {
        assert (a + b)[i] == a[i];
      }
      forall i | 0 <= i < |b| ensures Holds(b[i], c) {
        assert (a + b)[|a| + i] == b[i];
      }
    }
  }

  /** The rows, in table order, that satisfy every clause. */
  function Where(rows: seq<Contact>, clauses: seq<Clause>): (r: seq<Contact>)
    ensures forall c :: multiset(r)[c] == if AllHold(clauses, c) then multiset(rows)[c] else 0
    decreases |rows|
  {
    if |rows| == 0 then []
    else
      assert rows == [rows[0]] + rows[1..];
      (if AllHold(clauses, rows[0]) then [rows[0]] else []) + Where(rows[1..], clauses)
  }

  /** Runs a query over the table. */
  function Execute(q: Query, table: seq<Contact>): (r: seq<Contact>)
    ensures forall c :: multiset(r)[c] == if Admits(q, c) then multiset(table)[c] else 0
    ensures q.Select? && q.ordering == StatusDescUpdatedDesc ==> SortedBy(r, true)
    ensures q.Select? && q.ordering == StatusDescUpdatedAsc ==> SortedBy(r, false)
  {
    match q
    case NoRows => []
    case Select(clauses, ordering) =>
      var rows := Where(table, clauses);
      match ordering
      case Unordered => rows
      case StatusDescUpdatedDesc => Sort(rows, true)
      case StatusDescUpdatedAsc => Sort(rows, false)
  }

  // ---------------------------------------------------------------------------
  // Building the query

  /**
    The message-status where-clause: none for a falsy filter; the pair
    needsResponse/needsMessage for "needsMessageOrResponse"; otherwise the
    comma-separated statuses of the filter string.
   */
  function AddStatusClause(clauses: seq<Clause>, messageStatusFilter: Option<string>): (r: seq<Clause>)
    ensures !Truthy(messageStatusFilter) ==> r == clauses
    ensures forall c :: AllHold(r, c) <==>
      AllHold(clauses, c) &&
      (!Truthy(messageStatusFilter) ||
       (if messageStatusFilter.value == NeedsMessageOrResponse
        then c.messageStatus == NeedsResponse || c.messageStatus == NeedsMessage
        else c.messageStatus in Split(messageStatusFilter.value)))
  {
    if !Truthy(messageStatusFilter) then clauses
    else
      var clause :=
        if messageStatusFilter.value == NeedsMessageOrResponse then StatusIn([NeedsResponse, NeedsMessage])
        else StatusIn(Split(messageStatusFilter.value));
      forall c ensures AllHold(clauses + [clause], c) <==> AllHold(clauses, c) && Holds(clause, c) {
        AllHoldConcat(clauses, [clause], c);
        assert AllHold([clause], c) <==> Holds([clause][0], c);
      }
      clauses + [clause]
  }

  /** The timezone where-clause for `validTimezone` true or false; none otherwise. */
  function TimezoneClauses(validTimezone: Option<bool>, partition: OffsetPartition, defaultInHours: bool): (r: seq<Clause>)
    ensures forall c :: AllHold(r, c) <==> TimezoneAdmits(validTimezone, partition, defaultInHours, c.timezoneOffset)
  {
    var r := match validTimezone
      case Some(true) => [OffsetIn(partition.validOffsets + (if defaultInHours then [""] else []))]
      case Some(false) => [OffsetIn(partition.invalidOffsets + (if !defaultInHours then [""] else []))]
      case None => [];
    assert forall c :: |r| == 1 ==> (AllHold(r, c) <==> Holds(r[0], c));
    r
  }

  /** The opt-out where-clause, present exactly when the filter has the key. */
  function OptOutClauses(isOptedOut: Option<bool>): (r: seq<Clause>)
    ensures forall c :: AllHold(r, c) <==> OptOutAdmits(isOptedOut, c.isOptedOut)
  {
    var r := match isOptedOut
      case Some(b) => [OptedOutIs(b)]
      case None => [];
    assert forall c :: |r| == 1 ==> (AllHold(r, c) <==> Holds(r[0], c));
    r
  }

  predicate ShortCircuits(filter: Option<ContactsFilter>) {
    filter.Some? && Truthy(filter.value.contactId)
  }

  /** Past due, not asked to include past-due contacts, and asking for new messages. */
  predicate Suppressed(filter: Option<ContactsFilter>, pastDue: bool) {
    filter.Some? && !filter.value.includePastDue && pastDue && filter.value.messageStatus == Some(NeedsMessage)
  }

  /** The status string handed to the status clause: the filter's, or the default. */
  function EffectiveStatusFilter(f: ContactsFilter, pastDue: bool): Option<string> {
    if Truthy(f.messageStatus) then f.messageStatus
    else Some(if pastDue then NeedsResponse else NeedsMessageOrResponse)
  }

  /** Count mode leaves the rows unordered; a listing puts the newest first only for "convo". */
  function ListOrdering(filter: Option<ContactsFilter>, forCount: bool): (o: Ordering)
    ensures o == Unordered <==> forCount
    ensures o == StatusDescUpdatedDesc <==> !forCount && filter.Some? && filter.value.messageStatus == Some(Convo)
    ensures o == StatusDescUpdatedAsc <==> !forCount && !(filter.Some? && filter.value.messageStatus == Some(Convo))
  {
    if forCount then Unordered
    else if filter.Some? && filter.value.messageStatus == Some(Convo) then StatusDescUpdatedDesc
    else StatusDescUpdatedAsc
  }

  /**
    The where-clauses for a filter without a contact id: the assignment, then
    the timezone, status and opt-out clauses the filter asks for.
   */
  function FilterClauses(
    assignmentId: string, f: ContactsFilter, pastDue: bool, partition: OffsetPartition, defaultInHours: bool): (r: seq<Clause>)
    ensures |r| > 0 && r[0] == AssignmentIs(assignmentId)
    ensures forall c :: AllHold(r, c) <==>
      && c.assignmentId == assignmentId
      && TimezoneAdmits(f.validTimezone, partition, defaultInHours, c.timezoneOffset)
      && StatusAdmits(f.messageStatus, pastDue, c.messageStatus)
      && OptOutAdmits(f.isOptedOut, c.isOptedOut)
  {
    var base := [AssignmentIs(assignmentId)];
    var tz := TimezoneClauses(f.validTimezone, partition, defaultInHours);
    var withStatus := AddStatusClause(base + tz, EffectiveStatusFilter(f, pastDue));
    var optOut := OptOutClauses(f.isOptedOut);
    forall c ensures AllHold(withStatus + optOut, c) <==>
      && c.assignmentId == assignmentId
      && TimezoneAdmits(f.validTimezone, partition, defaultInHours, c.timezoneOffset)
      && StatusAdmits(f.messageStatus, pastDue, c.messageStatus)
      && OptOutAdmits(f.isOptedOut, c.isOptedOut)
    {
      AllHoldConcat(withStatus, optOut, c);
      AllHoldConcat(base, tz, c);
      assert AllHold(base, c) <==> Holds(base[0], c);
      EffectiveStatusMeaning(f, pastDue, c.messageStatus);
    }
    assert (withStatus + optOut)[0] == withStatus[0] == (base + tz)[0];
    withStatus + optOut
  }

  /** The status string handed to the status clause admits what `StatusAdmits` says. */
  lemma EffectiveStatusMeaning(f: ContactsFilter, pastDue: bool, status: string)
    ensures
      var effective := EffectiveStatusFilter(f, pastDue);
      && Truthy(effective)
      && ((if effective.value == NeedsMessageOrResponse
           then status == NeedsResponse || status == NeedsMessage
           else status in Split(effective.value))
          <==> StatusAdmits(f.messageStatus, pastDue, status))
  {
    SplitWithoutComma(NeedsResponse);
  }

  /** The query `getContacts` builds. */
  function ContactsQuery(
    assignmentId: string, filter: Option<ContactsFilter>, organization: Organization, campaign: Campaign,
    forCount: bool, now: int,
    getOffsets: HoursConfig -> OffsetPartition, defaultTimezoneIsBetweenTextingHours: HoursConfig -> bool): (q: Query)
    ensures q.Select? ==> |q.clauses| > 0 && q.clauses[0] == AssignmentIs(assignmentId)
  {
    if ShortCircuits(filter) then
      Select([AssignmentIs(assignmentId), IdIs(filter.value.contactId.value)], Unordered)
    else
      var pastDue := PastDue(campaign, now);
      var config := TextingHoursConfig(organization, campaign);
      var partition := getOffsets(config);
      if Suppressed(filter, pastDue) then NoRows
      else
        var clauses :=
          if filter.None? then [AssignmentIs(assignmentId)]
          else FilterClauses(assignmentId, filter.value, pastDue, partition, defaultTimezoneIsBetweenTextingHours(config));
        Select(clauses, ListOrdering(filter, forCount))
  }

  /** `getContacts`: the selected rows; in listing mode ordered, in count mode as stored. */
  function GetContacts(
    table: seq<Contact>, assignmentId: string, filter: Option<ContactsFilter>,
    organization: Organization, campaign: Campaign, forCount: bool, now: int,
    getOffsets: HoursConfig -> OffsetPartition, defaultTimezoneIsBetweenTextingHours: HoursConfig -> bool): (r: seq<Contact>)
    ensures forall c :: c in r ==> c.assignmentId == assignmentId
    ensures multiset(r) <= multiset(table)
  {
    var q := ContactsQuery(assignmentId, filter, organization, campaign, forCount, now,
                           getOffsets, defaultTimezoneIsBetweenTextingHours);
    var r := Execute(q, table);
    forall c | c in r ensures c.assignmentId == assignmentId {
      assert multiset(r)[c] > 0;
      assert Holds(q.clauses[0], c);
    }
    r
  }

  /** `contactsCount`: the number of rows the count-mode query selects. */
  function CountContacts(
    table: seq<Contact>, assignmentId: string, filter: Option<ContactsFilter>,
    organization: Organization, campaign: Campaign, now: int,
    getOffsets: HoursConfig -> OffsetPartition, defaultTimezoneIsBetweenTextingHours: HoursConfig -> bool): (n: nat)
    ensures n == |GetContacts(table, assignmentId, filter, organization, campaign, false, now,
                              getOffsets, defaultTimezoneIsBetweenTextingHours)|
  {
    var counted := GetContacts(table, assignmentId, filter, organization, campaign, true, now,
                               getOffsets, defaultTimezoneIsBetweenTextingHours);
    var listed := GetContacts(table, assignmentId, filter, organization, campaign, false, now,
                              getOffsets, defaultTimezoneIsBetweenTextingHours);
    var qc := ContactsQuery(assignmentId, filter, organization, campaign, true, now,
                            getOffsets, defaultTimezoneIsBetweenTextingHours);
    var ql := ContactsQuery(assignmentId, filter, organization, campaign, false, now,
                            getOffsets, defaultTimezoneIsBetweenTextingHours);
    assert forall c :: Admits(qc, c) <==> Admits(ql, c);
    assert multiset(counted) == multiset(listed);
    assert |counted| == |multiset(counted)| == |multiset(listed)| == |listed|;
    |counted|
  }

  // ---------------------------------------------------------------------------
  // What a selection means, stated directly on a row and the filter

  /**
    `validTimezone` true admits the offsets inside texting hours, and a missing
    offset when the default timezone is inside them; false admits the offsets
    outside, and a missing offset when the default timezone is outside; any
    other value admits every offset.
   */
  predicate TimezoneAdmits(validTimezone: Option<bool>, partition: OffsetPartition, defaultInHours: bool, offset: string) {
    match validTimezone
    case Some(true) => offset in partition.validOffsets || (offset == "" && defaultInHours)
    case Some(false) => offset in partition.invalidOffsets || (offset == "" && !defaultInHours)
    case None => true
  }

  /**
    Without a status asked for: needsResponse, plus needsMessage unless the
    campaign is past due. "needsMessageOrResponse": both. Anything else: the
    statuses listed in it, separated by commas.
   */
  predicate StatusAdmits(messageStatus: Option<string>, pastDue: bool, status: string) {
    if !Truthy(messageStatus) then status == NeedsResponse || (!pastDue && status == NeedsMessage)
    else if messageStatus.value == NeedsMessageOrResponse then status == NeedsResponse || status == NeedsMessage
    else status in Split(messageStatus.value)
  }

  /** An absent key admits every row; a present one, the rows with that flag. */
  predicate OptOutAdmits(isOptedOut: Option<bool>, optedOut: bool) {
    isOptedOut.None? || isOptedOut.value == optedOut
  }

  /** The filter's timezone and opt-out tests, which apply whatever the status asked for. */
  predicate TimezoneAndOptOutAdmit(f: ContactsFilter, partition: OffsetPartition, defaultInHours: bool, c: Contact) {
    TimezoneAdmits(f.validTimezone, partition, defaultInHours, c.timezoneOffset) && OptOutAdmits(f.isOptedOut, c.isOptedOut)
  }

  /** Whether `getContacts` selects row `c`. */
  predicate Selected(
    c: Contact, assignmentId: string, filter: Option<ContactsFilter>, pastDue: bool,
    partition: OffsetPartition, defaultInHours: bool)
  {
    && c.assignmentId == assignmentId
    && if ShortCircuits(filter) then c.id == filter.value.contactId.value
       else
         && !Suppressed(filter, pastDue)
         && (filter.None? ||
             var f := filter.value;
             && TimezoneAdmits(f.validTimezone, partition, defaultInHours, c.timezoneOffset)
             && StatusAdmits(f.messageStatus, pastDue, c.messageStatus)
             && OptOutAdmits(f.isOptedOut, c.isOptedOut))
  }

  /** The query built for a filter admits exactly the rows the filter selects. */
  lemma {:induction false} ContactsQueryAdmitsSelected(
    assignmentId: string, filter: Option<ContactsFilter>, organization: Organization, campaign: Campaign,
    forCount: bool, now: int,
    getOffsets: HoursConfig -> OffsetPartition, defaultTimezoneIsBetweenTextingHours: HoursConfig -> bool, c: Contact)
    ensures
      var config := TextingHoursConfig(organization, campaign);
      Admits(ContactsQuery(assignmentId, filter, organization, campaign, forCount, now,
                           getOffsets, defaultTimezoneIsBetweenTextingHours), c)
      <==> Selected(c, assignmentId, filter, PastDue(campaign, now), getOffsets(config),
                    defaultTimezoneIsBetweenTextingHours(config))
  {
    if ShortCircuits(filter) {
      var both := [AssignmentIs(assignmentId), IdIs(filter.value.contactId.value)];
      assert AllHold(both, c) <==> Holds(both[0], c) && Holds(both[1], c);
    } else if filter.None? {
      var base := [AssignmentIs(assignmentId)];
      assert AllHold(base, c) <==> Holds(base[0], c);
    }
  }

  /**
    Every row of the table is returned as many times as it is stored when the
    filter selects it, and not at all otherwise.
   */
  lemma GetContactsSelectsExactly(
    table: seq<Contact>, assignmentId: string, filter: Option<ContactsFilter>,
    organization: Organization, campaign: Campaign, forCount: bool, now: int,
    getOffsets: HoursConfig -> OffsetPartition, defaultTimezoneIsBetweenTextingHours: HoursConfig -> bool, c: Contact)
    ensures
      var config := TextingHoursConfig(organization, campaign);
      multiset(GetContacts(table, assignmentId, filter, organization, campaign, forCount, now,
                           getOffsets, defaultTimezoneIsBetweenTextingHours))[c]
      == if Selected(c, assignmentId, filter, PastDue(campaign, now), getOffsets(config),
                     defaultTimezoneIsBetweenTextingHours(config))
         then multiset(table)[c] else 0
  {
    ContactsQueryAdmitsSelected(assignmentId, filter, organization, campaign, forCount, now,
                                getOffsets, defaultTimezoneIsBetweenTextingHours, c);
  }

  /**
    A listing is ordered by status, descending, then by update time:
    newest first when the filter asks for "convo", oldest first otherwise.
   */
  lemma ListingOrder(
    table: seq<Contact>, assignmentId: string, filter: Option<ContactsFilter>,
    organization: Organization, campaign: Campaign, now: int,
    getOffsets: HoursConfig -> OffsetPartition, defaultTimezoneIsBetweenTextingHours: HoursConfig -> bool)
    requires !ShortCircuits(filter)
    ensures SortedBy(GetContacts(table, assignmentId, filter, organization, campaign, false, now,
                                 getOffsets, defaultTimezoneIsBetweenTextingHours),
                     filter.Some? && filter.value.messageStatus == Some(Convo))
  {
  }

  /**
    With a contact id the result is the assignment's rows with that id, in
    table order, whatever the rest of the filter, the campaign, the time or
    the mode.
   */
  lemma ContactIdShortCircuit(
    table: seq<Contact>, assignmentId: string, f: ContactsFilter,
    organization: Organization, campaign: Campaign, forCount: bool, now: int,
    getOffsets: HoursConfig -> OffsetPartition, defaultTimezoneIsBetweenTextingHours: HoursConfig -> bool, c: Contact)
    requires Truthy(f.contactId)
    ensures
      var r := GetContacts(table, assignmentId, Some(f), organization, campaign, forCount, now,
                           getOffsets, defaultTimezoneIsBetweenTextingHours);
      && r == Where(table, [AssignmentIs(assignmentId), IdIs(f.contactId.value)])
      && multiset(r)[c] == if c.assignmentId == assignmentId && c.id == f.contactId.value then multiset(table)[c] else 0
  {
    GetContactsSelectsExactly(table, assignmentId, Some(f), organization, campaign, forCount, now,
                              getOffsets, defaultTimezoneIsBetweenTextingHours, c);
  }

  /**
    The grace period is one day, the comparison with `now` is strict, and a
    campaign once past due stays past due.
   */
  lemma PastDueBoundary(campaign: Campaign, due: int, now: int, later: int)
    requires campaign.dueBy == Some(due)
    ensures PastDueGraceMillis == 86_400_000
    ensures !PastDue(campaign, due + PastDueGraceMillis)
    ensures PastDue(campaign, due + PastDueGraceMillis + 1)
    ensures PastDue(campaign, now) && now <= later ==> PastDue(campaign, later)
  {
  }

  /** A campaign without a due date is never past due. */
  lemma NoDueDateNeverPastDue(campaign: Campaign, now: int)
    requires campaign.dueBy.None?
    ensures !PastDue(campaign, now)
  {
  }

  /**
    Asking a past-due campaign for contacts that need a first message, without
    including past-due contacts, yields nothing.
   */
  lemma PastDueNeedsMessageIsEmpty(
    table: seq<Contact>, assignmentId: string, f: ContactsFilter,
    organization: Organization, campaign: Campaign, forCount: bool, now: int,
    getOffsets: HoursConfig -> OffsetPartition, defaultTimezoneIsBetweenTextingHours: HoursConfig -> bool)
    requires !Truthy(f.contactId) && !f.includePastDue && f.messageStatus == Some(NeedsMessage)
    requires campaign.dueBy.Some? && campaign.dueBy.value + PastDueGraceMillis < now
    ensures GetContacts(table, assignmentId, Some(f), organization, campaign, forCount, now,
                        getOffsets, defaultTimezoneIsBetweenTextingHours) == []
  {
  }

  /**
    With `includePastDue`, a needsMessage request returns the assignment's
    needsMessage rows that pass the filter's timezone and opt-out tests, even
    when the campaign is past due.
   */
  lemma IncludePastDueKeepsNewMessages(
    table: seq<Contact>, assignmentId: string, f: ContactsFilter,
    organization: Organization, campaign: Campaign, forCount: bool, now: int,
    getOffsets: HoursConfig -> OffsetPartition, defaultTimezoneIsBetweenTextingHours: HoursConfig -> bool, c: Contact)
    requires !Truthy(f.contactId) && f.includePastDue && f.messageStatus == Some(NeedsMessage)
    ensures
      var config := TextingHoursConfig(organization, campaign);
      multiset(GetContacts(table, assignmentId, Some(f), organization, campaign, forCount, now,
                           getOffsets, defaultTimezoneIsBetweenTextingHours))[c]
      == if c.assignmentId == assignmentId && c.messageStatus == NeedsMessage &&
            TimezoneAndOptOutAdmit(f, getOffsets(config), defaultTimezoneIsBetweenTextingHours(config), c)
         then multiset(table)[c] else 0
  {
    var config := TextingHoursConfig(organization, campaign);
    var pastDue := PastDue(campaign, now);
    assert Selected(c, assignmentId, Some(f), pastDue, getOffsets(config), defaultTimezoneIsBetweenTextingHours(config))
           <==> c.assignmentId == assignmentId && c.messageStatus == NeedsMessage &&
                TimezoneAndOptOutAdmit(f, getOffsets(config), defaultTimezoneIsBetweenTextingHours(config), c) by {
      SplitWithoutComma(NeedsMessage);
      assert !ShortCircuits(Some(f)) && !Suppressed(Some(f), pastDue);
    }
    GetContactsSelectsExactly(table, assignmentId, Some(f), organization, campaign, forCount, now,
                              getOffsets, defaultTimezoneIsBetweenTextingHours, c);
  }

  /** Without a filter every row of the assignment is returned, past due or not. */
  lemma NoFilterSelectsWholeAssignment(
    table: seq<Contact>, assignmentId: string,
    organization: Organization, campaign: Campaign, forCount: bool, now: int,
    getOffsets: HoursConfig -> OffsetPartition, defaultTimezoneIsBetweenTextingHours: HoursConfig -> bool, c: Contact)
    ensures multiset(GetContacts(table, assignmentId, None, organization, campaign, forCount, now,
                                 getOffsets, defaultTimezoneIsBetweenTextingHours))[c]
            == if c.assignmentId == assignmentId then multiset(table)[c] else 0
  {
    GetContactsSelectsExactly(table, assignmentId, None, organization, campaign, forCount, now,
                              getOffsets, defaultTimezoneIsBetweenTextingHours, c);
  }

  /**
    A filter without a status selects needsResponse rows, and needsMessage
    rows too unless the campaign is past due.
   */
  lemma DefaultStatusChoice(
    table: seq<Contact>, assignmentId: string, f: ContactsFilter,
    organization: Organization, campaign: Campaign, forCount: bool, now: int,
    getOffsets: HoursConfig -> OffsetPartition, defaultTimezoneIsBetweenTextingHours: HoursConfig -> bool, c: Contact)
    requires !Truthy(f.contactId) && !Truthy(f.messageStatus)
    ensures
      var config := TextingHoursConfig(organization, campaign);
      multiset(GetContacts(table, assignmentId, Some(f), organization, campaign, forCount, now,
                           getOffsets, defaultTimezoneIsBetweenTextingHours))[c]
      == if c.assignmentId == assignmentId &&
            (c.messageStatus == NeedsResponse || (!PastDue(campaign, now) && c.messageStatus == NeedsMessage)) &&
            TimezoneAndOptOutAdmit(f, getOffsets(config), defaultTimezoneIsBetweenTextingHours(config), c)
         then multiset(table)[c] else 0
  {
    GetContactsSelectsExactly(table, assignmentId, Some(f), organization, campaign, forCount, now,
                              getOffsets, defaultTimezoneIsBetweenTextingHours, c);
  }

  /**
    Asking explicitly for "needsMessageOrResponse" selects both statuses even
    when the campaign is past due, unlike the default.
   */
  lemma ExplicitNeedsMessageOrResponse(
    table: seq<Contact>, assignmentId: string, f: ContactsFilter,
    organization: Organization, campaign: Campaign, forCount: bool, now: int,
    getOffsets: HoursConfig -> OffsetPartition, defaultTimezoneIsBetweenTextingHours: HoursConfig -> bool, c: Contact)
    requires !Truthy(f.contactId) && f.messageStatus == Some(NeedsMessageOrResponse)
    ensures
      var config := TextingHoursConfig(organization, campaign);
      multiset(GetContacts(table, assignmentId, Some(f), organization, campaign, forCount, now,
                           getOffsets, defaultTimezoneIsBetweenTextingHours))[c]
      == if c.assignmentId == assignmentId &&
            (c.messageStatus == NeedsResponse || c.messageStatus == NeedsMessage) &&
            TimezoneAndOptOutAdmit(f, getOffsets(config), defaultTimezoneIsBetweenTextingHours(config), c)
         then multiset(table)[c] else 0
  {
    GetContactsSelectsExactly(table, assignmentId, Some(f), organization, campaign, forCount, now,
                              getOffsets, defaultTimezoneIsBetweenTextingHours, c);
  }

  /**
    A status value that is not a comma list and that no row carries selects
    nothing: an unrecognised status is an empty result, not an error.
   */
  lemma UnrecognisedStatusSelectsNothing(
    table: seq<Contact>, assignmentId: string, f: ContactsFilter,
    organization: Organization, campaign: Campaign, forCount: bool, now: int,
    getOffsets: HoursConfig -> OffsetPartition, defaultTimezoneIsBetweenTextingHours: HoursConfig -> bool)
    requires !Truthy(f.contactId) && Truthy(f.messageStatus)
    requires f.messageStatus.value != NeedsMessageOrResponse && Comma !in f.messageStatus.value
    requires forall c :: c in table ==> c.messageStatus != f.messageStatus.value
    ensures GetContacts(table, assignmentId, Some(f), organization, campaign, forCount, now,
                        getOffsets, defaultTimezoneIsBetweenTextingHours) == []
  {
    var r := GetContacts(table, assignmentId, Some(f), organization, campaign, forCount, now,
                         getOffsets, defaultTimezoneIsBetweenTextingHours);
    SplitWithoutComma(f.messageStatus.value);
    forall c ensures multiset(r)[c] == 0 {
      GetContactsSelectsExactly(table, assignmentId, Some(f), organization, campaign, forCount, now,
                                getOffsets, defaultTimezoneIsBetweenTextingHours, c);
    }
    assert multiset(r) == multiset{};
  }

  /**
    When the partition does not list the empty offset itself, a row with no
    offset is admitted by exactly one of `validTimezone` true and false.
   */
  lemma EmptyOffsetInExactlyOneView(partition: OffsetPartition, defaultInHours: bool)
    requires "" !in partition.validOffsets && "" !in partition.invalidOffsets
    ensures TimezoneAdmits(Some(true), partition, defaultInHours, "")
            != TimezoneAdmits(Some(false), partition, defaultInHours, "")
  {
  }

  /**
    The same for whole selections: a stored row of the assignment with no
    offset that passes the filter's status and opt-out tests is selected by
    exactly one of the filter's two timezone views.
   */
  lemma EmptyOffsetContactInExactlyOneSelection(
    table: seq<Contact>, assignmentId: string, f: ContactsFilter,
    organization: Organization, campaign: Campaign, forCount: bool, now: int,
    getOffsets: HoursConfig -> OffsetPartition, defaultTimezoneIsBetweenTextingHours: HoursConfig -> bool, c: Contact)
    requires
      var partition := getOffsets(TextingHoursConfig(organization, campaign));
      "" !in partition.validOffsets && "" !in partition.invalidOffsets
    requires !Truthy(f.contactId) && c.timezoneOffset == ""
    requires c in table && c.assignmentId == assignmentId
    requires !Suppressed(Some(f), PastDue(campaign, now))
    requires StatusAdmits(f.messageStatus, PastDue(campaign, now), c.messageStatus)
    requires OptOutAdmits(f.isOptedOut, c.isOptedOut)
    ensures
      (c in GetContacts(table, assignmentId, Some(f.(validTimezone := Some(true))), organization, campaign,
                        forCount, now, getOffsets, defaultTimezoneIsBetweenTextingHours))
      != (c in GetContacts(table, assignmentId, Some(f.(validTimezone := Some(false))), organization, campaign,
                           forCount, now, getOffsets, defaultTimezoneIsBetweenTextingHours))
  {
    assert multiset(table)[c] > 0;
    GetContactsSelectsExactly(table, assignmentId, Some(f.(validTimezone := Some(true))), organization, campaign,
                              forCount, now, getOffsets, defaultTimezoneIsBetweenTextingHours, c);
    GetContactsSelectsExactly(table, assignmentId, Some(f.(validTimezone := Some(false))), organization, campaign,
                              forCount, now, getOffsets, defaultTimezoneIsBetweenTextingHours, c);
  }

  /**
    A present `isOptedOut` key, even with value false, keeps only the rows
    with that flag, and keeps every such row the open filter returns.
   */
  lemma OptOutKeyFilters(
    table: seq<Contact>, assignmentId: string, f: ContactsFilter, optedOut: bool,
    organization: Organization, campaign: Campaign, forCount: bool, now: int,
    getOffsets: HoursConfig -> OffsetPartition, defaultTimezoneIsBetweenTextingHours: HoursConfig -> bool, c: Contact)
    requires !Truthy(f.contactId) && f.isOptedOut == Some(optedOut)
    ensures
      var keyed := GetContacts(table, assignmentId, Some(f), organization, campaign, forCount, now,
                               getOffsets, defaultTimezoneIsBetweenTextingHours);
      var open := GetContacts(table, assignmentId, Some(f.(isOptedOut := None)), organization, campaign, forCount, now,
                              getOffsets, defaultTimezoneIsBetweenTextingHours);
      multiset(keyed)[c] == if c.isOptedOut == optedOut then multiset(open)[c] else 0
  {
    GetContactsSelectsExactly(table, assignmentId, Some(f), organization, campaign, forCount, now,
                              getOffsets, defaultTimezoneIsBetweenTextingHours, c);
    GetContactsSelectsExactly(table, assignmentId, Some(f.(isOptedOut := None)), organization, campaign,
                              forCount, now, getOffsets, defaultTimezoneIsBetweenTextingHours, c);
  }

  /**
    Asking for "convo" returns every conversation row of the assignment that
    passes the filter's timezone and opt-out tests, as often as it is stored,
    and no other row, past due or not.
   */
  lemma ConvoSelectsConversations(
    table: seq<Contact>, assignmentId: string, f: ContactsFilter,
    organization: Organization, campaign: Campaign, forCount: bool, now: int,
    getOffsets: HoursConfig -> OffsetPartition, defaultTimezoneIsBetweenTextingHours: HoursConfig -> bool, c: Contact)
    requires !Truthy(f.contactId) && f.messageStatus == Some(Convo)
    ensures
      var config := TextingHoursConfig(organization, campaign);
      multiset(GetContacts(table, assignmentId, Some(f), organization, campaign, forCount, now,
                           getOffsets, defaultTimezoneIsBetweenTextingHours))[c]
      == if c.assignmentId == assignmentId && c.messageStatus == Convo &&
            TimezoneAndOptOutAdmit(f, getOffsets(config), defaultTimezoneIsBetweenTextingHours(config), c)
         then multiset(table)[c] else 0
  {
    var config := TextingHoursConfig(organization, campaign);
    var pastDue := PastDue(campaign, now);
    assert Selected(c, assignmentId, Some(f), pastDue, getOffsets(config), defaultTimezoneIsBetweenTextingHours(config))
           <==> c.assignmentId == assignmentId && c.messageStatus == Convo &&
                TimezoneAndOptOutAdmit(f, getOffsets(config), defaultTimezoneIsBetweenTextingHours(config), c) by {
      SplitWithoutComma(Convo);
      assert !ShortCircuits(Some(f)) && !Suppressed(Some(f), pastDue);
    }
    GetContactsSelectsExactly(table, assignmentId, Some(f),
                              organization, campaign, forCount, now, getOffsets, defaultTimezoneIsBetweenTextingHours, c);
  }

  /**
    A listing of a two-row table whose rows the filter both selects is the
    whole table, whatever order the table stores them in.
   */
  lemma TwoSelectedRows(
    table: seq<Contact>, a: Contact, b: Contact, assignmentId: string, filter: Option<ContactsFilter>,
    organization: Organization, campaign: Campaign, now: int,
    getOffsets: HoursConfig -> OffsetPartition, defaultTimezoneIsBetweenTextingHours: HoursConfig -> bool)
    requires multiset(table) == multiset{a, b}
    requires
      var config := TextingHoursConfig(organization, campaign);
      && Selected(a, assignmentId, filter, PastDue(campaign, now), getOffsets(config), defaultTimezoneIsBetweenTextingHours(config))
      && Selected(b, assignmentId, filter, PastDue(campaign, now), getOffsets(config), defaultTimezoneIsBetweenTextingHours(config))
    ensures multiset(GetContacts(table, assignmentId, filter, organization, campaign, false, now,
                                 getOffsets, defaultTimezoneIsBetweenTextingHours)) == multiset{a, b}
  {
    var r := GetContacts(table, assignmentId, filter, organization, campaign, false, now,
                         getOffsets, defaultTimezoneIsBetweenTextingHours);
    forall c ensures multiset(r)[c] == multiset(table)[c] {
      GetContactsSelectsExactly(table, assignmentId, filter, organization, campaign, false, now,
                                getOffsets, defaultTimezoneIsBetweenTextingHours, c);
    }
    assert multiset(r) == multiset(table);
  }

  /**
    Two rows of one status that a "convo" request selects are listed most
    recently updated first, whatever order the table stores them in.
   */
  lemma ConvoListsNewestFirst(
    table: seq<Contact>, older: Contact, newer: Contact, assignmentId: string, f: ContactsFilter,
    organization: Organization, campaign: Campaign, now: int,
    getOffsets: HoursConfig -> OffsetPartition, defaultTimezoneIsBetweenTextingHours: HoursConfig -> bool)
    requires !Truthy(f.contactId) && f.messageStatus == Some(Convo)
    requires multiset(table) == multiset{older, newer}
    requires
      var config := TextingHoursConfig(organization, campaign);
      && Selected(older, assignmentId, Some(f), PastDue(campaign, now), getOffsets(config), defaultTimezoneIsBetweenTextingHours(config))
      && Selected(newer, assignmentId, Some(f), PastDue(campaign, now), getOffsets(config), defaultTimezoneIsBetweenTextingHours(config))
    requires older.messageStatus == newer.messageStatus && older.updatedAt < newer.updatedAt
    ensures GetContacts(table, assignmentId, Some(f), organization, campaign, false, now,
                        getOffsets, defaultTimezoneIsBetweenTextingHours)
            == [newer, older]
  {
    var r := GetContacts(table, assignmentId, Some(f), organization, campaign, false, now,
                         getOffsets, defaultTimezoneIsBetweenTextingHours);
    assert multiset(r) == multiset{newer, older} by {
      TwoSelectedRows(table, older, newer, assignmentId, Some(f), organization, campaign, now,
                      getOffsets, defaultTimezoneIsBetweenTextingHours);
    }
    assert SortedBy(r, true) by {
      ListingOrder(table, assignmentId, Some(f), organization, campaign, now, getOffsets, defaultTimezoneIsBetweenTextingHours);
    }
    SortedPair(r, newer, older, true);
  }

  /**
    For any other request without a contact id, including no filter at all,
    two selected rows of one status are listed longest untouched first,
    whatever order the table stores them in.
   */
  lemma DefaultListsOldestFirst(
    table: seq<Contact>, older: Contact, newer: Contact, assignmentId: string, filter: Option<ContactsFilter>,
    organization: Organization, campaign: Campaign, now: int,
    getOffsets: HoursConfig -> OffsetPartition, defaultTimezoneIsBetweenTextingHours: HoursConfig -> bool)
    requires !ShortCircuits(filter) && !(filter.Some? && filter.value.messageStatus == Some(Convo))
    requires multiset(table) == multiset{older, newer}
    requires
      var config := TextingHoursConfig(organization, campaign);
      && Selected(older, assignmentId, filter, PastDue(campaign, now), getOffsets(config), defaultTimezoneIsBetweenTextingHours(config))
      && Selected(newer, assignmentId, filter, PastDue(campaign, now), getOffsets(config), defaultTimezoneIsBetweenTextingHours(config))
    requires older.messageStatus == newer.messageStatus && older.updatedAt < newer.updatedAt
    ensures GetContacts(table, assignmentId, filter, organization, campaign, false, now,
                        getOffsets, defaultTimezoneIsBetweenTextingHours)
            == [older, newer]
  {
    var r := GetContacts(table, assignmentId, filter, organization, campaign, false, now,
                         getOffsets, defaultTimezoneIsBetweenTextingHours);
    assert multiset(r) == multiset{older, newer} by {
      TwoSelectedRows(table, older, newer, assignmentId, filter, organization, campaign, now,
                      getOffsets, defaultTimezoneIsBetweenTextingHours);
    }
    assert SortedBy(r, false) by {
      ListingOrder(table, assignmentId, filter, organization, campaign, now, getOffsets, defaultTimezoneIsBetweenTextingHours);
    }
    SortedPair(r, older, newer, false);
  }
}

=== FILE: contact_toolbar.dfy ===
/**
  The values the contact toolbar derives from a contact's location: the
  offset and daylight-saving flag for the contact's local clock, the location
  line, and the timezone whose daylight-saving rules the clock follows.

  The campaign-adjusted timezone, the local-time formatting and the process's
  default reference timezone come from helpers whose code is not part of this
  model; they are parameters.
 */
module ContactToolbar {
  import opened Values

  /**
    An offset and daylight-saving flag: a timezone record, or what the local
    clock is computed from. `None` is a missing or undefined field.
   */
  datatype Clock = Clock(offset: Option<int>, hasDST: Option<bool>)

  datatype Location = Location(city: string, state: string, timezone: Option<Clock>)

  datatype ToolbarCampaign = ToolbarCampaign(overrideOrganizationTextingHours: bool, timezone: string)

  const DefaultClock: Clock := Clock(Some(0), Some(false))

  /**
    The clock settings. Without a location: offset 0, no daylight saving.
    With one, the location's timezone supplies its truthy offset and flag (a
    falsy one keeps the default); then a campaign-adjusted timezone, when
    there is one, replaces both fields as they are, even when undefined.
    `contactTimezone` is `getContactTimezone(campaign, location).timezone`,
    `None` when either is missing.
   */
  function ResolveClock(campaign: ToolbarCampaign, location: Option<Location>,
                        contactTimezone: (ToolbarCampaign, Location) -> Option<Clock>): (clock: Clock)
    ensures location.None? ==> clock == DefaultClock
    ensures location.Some? && contactTimezone(campaign, location.value).Some? ==>
      var adjusted := contactTimezone(campaign, location.value).value;
      clock == adjusted
    ensures location.Some? && contactTimezone(campaign, location.value).None? ==>
      && clock.offset.Some? && clock.hasDST.Some?
      && (clock.offset.value != 0 <==>
          location.value.timezone.Some? && TruthyInt(location.value.timezone.value.offset))
      && (clock.offset.value != 0 ==> clock.offset == location.value.timezone.value.offset)
      && (clock.hasDST.value <==>
          location.value.timezone.Some? && TruthyBool(location.value.timezone.value.hasDST))
  {
    match location
    case None => DefaultClock
    case Some(loc) =>
      var fromLocation :=
        match loc.timezone
        case None => DefaultClock
        case Some(tz) =>
          Clock(if TruthyInt(tz.offset) then tz.offset else DefaultClock.offset,
                if TruthyBool(tz.hasDST) then tz.hasDST else DefaultClock.hasDST);
      match contactTimezone(campaign, loc)
      case Some(adjusted) => adjusted
      case None => fromLocation
  }

  /**
    The location line: the city, then ", " when both city and state are
    non-empty, then a space and the state. Both parts present give a double
    space after the comma.
   */
  function FormattedLocation(city: string, state: string): (line: string)
    ensures city != "" && state != "" ==> line == city + ", " + " " + state
    ensures city == "" ==> line == " " + state
    ensures state == "" ==> line == city + " "
  {
    var prefix := if city != "" && state != "" then city + ", " else city;
    prefix + " " + state
  }

  /**
    The timezone whose daylight-saving rules the local clock follows: the
    campaign's own when it overrides the organization's texting hours, the
    process default otherwise.
   */
  function DstReferenceTimezone(campaign: ToolbarCampaign, processDefault: string): (tz: string)
    ensures campaign.overrideOrganizationTextingHours ==> tz == campaign.timezone
    ensures !campaign.overrideOrganizationTextingHours ==> tz == processDefault
  {
    if campaign.overrideOrganizationTextingHours then campaign.timezone else processDefault
  }

  /** The two toolbar titles that depend on the location; `None` is not rendered. */
  datatype ToolbarTitles = ToolbarTitles(localTime: Option<string>, locationLine: Option<string>)

  /**
    The toolbar's location-dependent titles: both shown exactly when the
    contact has a location. `formatLocalTime` stands for
    `getLocalTime(offset, hasDST, reference).format('LT')`.
   */
  function Titles(campaign: ToolbarCampaign, location: Option<Location>,
                  contactTimezone: (ToolbarCampaign, Location) -> Option<Clock>,
                  processDefault: string,
                  formatLocalTime: (Option<int>, Option<bool>, string) -> string): (t: ToolbarTitles)
    ensures t.localTime.Some? <==> location.Some?
    ensures t.locationLine.Some? <==> location.Some?
    ensures location.Some? ==>
      t.locationLine == Some(FormattedLocation(location.value.city, location.value.state))
    ensures location.Some? ==>
      var clock := ResolveClock(campaign, location, contactTimezone);
      t.localTime == Some(formatLocalTime(clock.offset, clock.hasDST, DstReferenceTimezone(campaign, processDefault)))
  {
    var clock := ResolveClock(campaign, location, contactTimezone);
    var time := formatLocalTime(clock.offset, clock.hasDST, DstReferenceTimezone(campaign, processDefault));
    match location
    case None => ToolbarTitles(None, None)
    case Some(loc) => ToolbarTitles(Some(time), Some(FormattedLocation(loc.city, loc.state)))
  }

  /**
    The process's default reference timezone matters only when the campaign
    does not override the organization's hours: with an override, any two
    defaults give the same titles.
   */
  lemma OverrideIgnoresProcessDefault(campaign: ToolbarCampaign, location: Option<Location>,
                                      contactTimezone: (ToolbarCampaign, Location) -> Option<Clock>,
                                      default1: string, default2: string,
                                      formatLocalTime: (Option<int>, Option<bool>, string) -> string)
    requires campaign.overrideOrganizationTextingHours
    ensures Titles(campaign, location, contactTimezone, default1, formatLocalTime)
            == Titles(campaign, location, contactTimezone, default2, formatLocalTime)
  {
  }
}

=== FILE: contacts.dfy ===
/**
  Rows of the `campaign_contact` table, as far as contact selection reads
  them, and the two orderings a listing query applies:
  `message_status DESC, updated_at DESC` and `message_status DESC, updated_at`.
  Sorting is modelled as a stable insertion sort over a sequence; the result
  is a rearrangement of its input that is ordered by the query's key.
 */
module Contacts {
  import opened Text

  /** One `campaign_contact` row. `updatedAt` is a timestamp in milliseconds. */
  datatype Contact = Contact(
    id: string,
    assignmentId: string,
    messageStatus: string,
    timezoneOffset: string,
    isOptedOut: bool,
    updatedAt: int)

  /** The message statuses a contact moves through. */
  const NeedsMessage: string := "needsMessage"
  const NeedsResponse: string := "needsResponse"
  const Messaged: string := "messaged"
  const Convo: string := "convo"
  const Closed: string := "closed"

  /**
    `a` may be listed before `b`: a higher message status first; on equal
    status, the more recently updated first when `newestFirst`, the longest
    untouched first otherwise.
   */
  predicate Precedes(a: Contact, b: Contact, newestFirst: bool) {
    if a.messageStatus == b.messageStatus then
      (if newestFirst then a.updatedAt >= b.updatedAt else a.updatedAt <= b.updatedAt)
    else
      LexLe(b.messageStatus, a.messageStatus)
  }

  predicate SortedBy(rows: seq<Contact>, newestFirst: bool) {
    forall i, j :: 0 <= i < j < |rows| ==> Precedes(rows[i], rows[j], newestFirst)
  }

  lemma PrecedesTotal(a: Contact, b: Contact, newestFirst: bool)
    ensures Precedes(a, b, newestFirst) || Precedes(b, a, newestFirst)
  {
    if a.messageStatus != b.messageStatus {
      LexLeTotal(a.messageStatus, b.messageStatus);
    }
  }

  lemma PrecedesTransitive(a: Contact, b: Contact, c: Contact, newestFirst: bool)
    requires Precedes(a, b, newestFirst) && Precedes(b, c, newestFirst)
    ensures Precedes(a, c, newestFirst)
  {
    var sa, sb, sc := a.messageStatus, b.messageStatus, c.messageStatus;
    if sa != sb && sb != sc {
      LexLeTransitive(sc, sb, sa);
      if sa == sc {
        LexLeAntisymmetric(sa, sb);
      }
    }
  }

  /** In an ordered sequence the first row may precede every row. */
  lemma HeadPrecedesAll(rows: seq<Contact>, newestFirst: bool)
    requires SortedBy(rows, newestFirst) && |rows| > 0
    ensures forall y :: y in rows ==> Precedes(rows[0], y, newestFirst)
  {
    forall y | y in rows
      ensures Precedes(rows[0], y, newestFirst)
    {
      var k :| 0 <= k < |rows| && rows[k] == y;
      if k == 0 {
        PrecedesTotal(y, y, newestFirst);
      }
    }
  }

  /** A row that may precede every row of an ordered sequence can be put in front of it. */
  lemma PrependSorted(x: Contact, rows: seq<Contact>, newestFirst: bool)
    requires SortedBy(rows, newestFirst)
    requires forall y :: y in rows ==> Precedes(x, y, newestFirst)
    ensures SortedBy([x] + rows, newestFirst)
  {
    forall i, j | 0 <= i < j < |[x] + rows|
      ensures Precedes(([x] + rows)[i], ([x] + rows)[j], newestFirst)
    {
      if i == 0 {
        assert ([x] + rows)[j] == rows[j - 1];
        assert rows[j - 1] in rows;
      } else {
        assert ([x] + rows)[i] == rows[i - 1] && ([x] + rows)[j] == rows[j - 1];
      }
    }
  }

  /** Places `x` into an ordered sequence, after every row it may not precede. */
  function Insert(x: Contact, rows: seq<Contact>, newestFirst: bool): (r: seq<Contact>)
    requires SortedBy(rows, newestFirst)
    ensures SortedBy(r, newestFirst)
    ensures multiset(r) == multiset(rows) + multiset{x}
    decreases |rows|
  {
    if |rows| == 0 then [x]
    else if Precedes(x, rows[0], newestFirst) then
      assert forall y :: y in rows ==> Precedes(x, y, newestFirst) by {
        HeadPrecedesAll(rows, newestFirst);
        forall y | y in rows
          ensures Precedes(x, y, newestFirst)
        {
          PrecedesTransitive(x, rows[0], y, newestFirst);
        }
      }
      PrependSorted(x, rows, newestFirst);
      [x] + rows
    else
      var tail := rows[1..];
      assert rows == [rows[0]] + tail;
      var rest := Insert(x, tail, newestFirst);
      assert forall y :: y in rest ==> Precedes(rows[0], y, newestFirst) by {
        HeadPrecedesAll(rows, newestFirst);
        PrecedesTotal(x, rows[0], newestFirst);
        forall y | y in rest
          ensures Precedes(rows[0], y, newestFirst)
        {
          assert y in multiset(rest);
          if y != x {
            assert y in multiset(tail);
            assert y in rows;
          }
        }
      }
      PrependSorted(rows[0], rest, newestFirst);
      [rows[0]] + rest
  }

  /** Orders rows by the listing key, keeping every row exactly once. */
  function Sort(rows: seq<Contact>, newestFirst: bool): (r: seq<Contact>)
    ensures SortedBy(r, newestFirst)
    ensures multiset(r) == multiset(rows)
    decreases |rows|
  {
    if |rows| == 0 then []
    else
      assert rows == [rows[0]] + rows[1..];
      Insert(rows[0], Sort(rows[1..], newestFirst), newestFirst)
  }

  /** An ordered rearrangement of two rows, one strictly before the other, is that pair in order. */
  lemma SortedPair(r: seq<Contact>, a: Contact, b: Contact, newestFirst: bool)
    requires SortedBy(r, newestFirst) && multiset(r) == multiset{a, b}
    requires !Precedes(b, a, newestFirst)
    ensures r == [a, b]
  {
    assert |r| == |multiset(r)| == 2;
    assert r[0] in multiset(r) && r[1] in multiset(r);
    assert multiset(r) == multiset{r[0], r[1]} by {
      assert r == [r[0], r[1]];
    }
    assert Precedes(r[0], r[1], newestFirst);
    assert r[0] != b;
  }
}

=== FILE: interaction_steps.dfy ===
/**
  The survey script of a campaign and the texter's recorded answers.

  A step asks a question with answer options; an option may lead to a next
  step. Recorded answers map a step id to a value, where `None` is a cleared
  (`null`) answer. An answer counts only when it is truthy: present, not null
  and not the empty string.

  Finding the top-most step, looking a step up by id, and listing a step's
  children are helpers whose code is not part of this model: the top-most
  step is passed in as `root`, the lookup as `stepForId`, and the children as
  a list of ids.
 */
module InteractionSteps {
  import opened Values

  datatype AnswerOption = AnswerOption(value: string, nextStepId: Option<string>)

  datatype InteractionStep = InteractionStep(id: string, answerOptions: seq<AnswerOption>)

  /** Recorded answers by step id; `None` is an answer cleared to `null`. */
  type Responses = map<string, Option<string>>

  /** One stored answer, as loaded with the contact. */
  datatype QuestionResponseValue = QuestionResponseValue(interactionStepId: string, value: string)

  predicate HasAnswer(responses: Responses, stepId: string) {
    stepId in responses && Truthy(responses[stepId])
  }

  // ---------------------------------------------------------------------------
  // Walking the script

  /** `answerOptions.find(o => o.value === value)`, as a position. */
  function FindOption(options: seq<AnswerOption>, value: string): (r: Option<nat>)
    ensures r.Some? ==> r.value < |options| && options[r.value].value == value
    ensures r.Some? ==> forall k :: 0 <= k < r.value ==> options[k].value != value
    ensures r.None? <==> forall k :: 0 <= k < |options| ==> options[k].value != value
    decreases |options|
  {
    if |options| == 0 then None
    else if options[0].value == value then Some(0)
    else
      match FindOption(options[1..], value)
      case None => None
      case Some(i) => Some(i + 1)
  }

  /**
    The id the walk moves to from `step`: the next step of the first answer
    option equal to the recorded answer, if the answer is truthy, such an
    option exists and it names a next step.
   */
  function NextStepId(step: InteractionStep, responses: Responses): (next: Option<string>)
    ensures !HasAnswer(responses, step.id) ==> next.None?
    ensures next.Some? ==> exists o :: o in step.answerOptions && o.value == responses[step.id].value && o.nextStepId == next
  {
    if !HasAnswer(responses, step.id) then None
    else
      match FindOption(step.answerOptions, responses[step.id].value)
      case None => None
      case Some(i) => step.answerOptions[i].nextStepId
  }

  /**
    Which option `NextStepId` follows: none when no option equals the truthy
    answer, and otherwise the first option that does, whatever the later
    options say.
   */
  lemma NextStepIdFirstMatch(step: InteractionStep, responses: Responses, i: nat)
    requires HasAnswer(responses, step.id)
    ensures (forall k :: 0 <= k < |step.answerOptions| ==> step.answerOptions[k].value != responses[step.id].value)
            ==> NextStepId(step, responses).None?
    ensures i < |step.answerOptions| && step.answerOptions[i].value == responses[step.id].value &&
            (forall k :: 0 <= k < i ==> step.answerOptions[k].value != responses[step.id].value)
            ==> NextStepId(step, responses) == step.answerOptions[i].nextStepId
  {
    var answer := responses[step.id].value;
    var found := FindOption(step.answerOptions, answer);
    if i < |step.answerOptions| && step.answerOptions[i].value == answer &&
       (forall k :: 0 <= k < i ==> step.answerOptions[k].value != answer) {
      assert found.Some?;
    }
  }

  /** The walk goes straight from `s` to `t`. */
  predicate Follows(s: InteractionStep, t: InteractionStep, responses: Responses,
                    stepForId: string -> Option<InteractionStep>)
  {
    var next := NextStepId(s, responses);
    next.Some? && stepForId(next.value) == Some(t)
  }

  /** The walk ends at `s`: there is no step to move to. */
  predicate Stops(s: InteractionStep, responses: Responses, stepForId: string -> Option<InteractionStep>) {
    var next := NextStepId(s, responses);
    next.None? || stepForId(next.value).None?
  }

  /**
    The steps visited from `step`, at most `fuel` of them. The source's loop
    has no bound and does not end on a cyclic script; within the bound the
    walk is the source's.
   */
  function Walk(step: InteractionStep, responses: Responses, stepForId: string -> Option<InteractionStep>, fuel: nat)
    : (path: seq<InteractionStep>)
    ensures |path| <= fuel
    ensures fuel > 0 ==> |path| > 0 && path[0] == step
    ensures forall i :: 0 <= i < |path| - 1 ==> Follows(path[i], path[i + 1], responses, stepForId)
    ensures 0 < |path| < fuel ==> Stops(path[|path| - 1], responses, stepForId)
    decreases fuel
  {
    if fuel == 0 then []
    else
      var next := NextStepId(step, responses);
      if next.None? then [step]
      else
        match stepForId(next.value)
        case None => [step]
        case Some(t) =>
          var rest := Walk(t, responses, stepForId, fuel - 1);
          assert forall i :: 1 <= i < |rest| + 1 ==> ([step] + rest)[i] == rest[i - 1];
          [step] + rest
  }

  /**
    `getAvailableInteractionSteps`: the walk from the top-most step, or no
    steps when there is no top-most step.
   */
  function AvailableSteps(root: Option<InteractionStep>, responses: Responses,
                          stepForId: string -> Option<InteractionStep>, fuel: nat): (path: seq<InteractionStep>)
    ensures fuel > 0 ==> (|path| == 0 <==> root.None?)
    ensures |path| > 0 ==> root.Some? && path[0] == root.value
    ensures forall i :: 0 <= i < |path| - 1 ==> Follows(path[i], path[i + 1], responses, stepForId)
    ensures 0 < |path| < fuel ==> Stops(path[|path| - 1], responses, stepForId)
  {
    match root
    case None => []
    case Some(r) => Walk(r, responses, stepForId, fuel)
  }

  /** The step the texter is on: the last available step, if any. */
  function CurrentInteractionStep(available: seq<InteractionStep>): (current: Option<InteractionStep>)
    ensures current.None? <==> |available| == 0
    ensures current.Some? ==> current.value in available && current.value == available[|available| - 1]
  {
    if |available| > 0 then Some(available[|available| - 1]) else None
  }

  /**
    The walk is the only path that starts at the step, moves only along
    answered options and stops where there is nowhere to go: any such path
    (within the bound) equals `Walk`.
   */
  lemma {:induction false} WalkIsUnique(
    step: InteractionStep, responses: Responses, stepForId: string -> Option<InteractionStep>,
    fuel: nat, path: seq<InteractionStep>)
    requires 0 < |path| < fuel && path[0] == step
    requires forall i :: 0 <= i < |path| - 1 ==> Follows(path[i], path[i + 1], responses, stepForId)
    requires Stops(path[|path| - 1], responses, stepForId)
    ensures Walk(step, responses, stepForId, fuel) == path
    decreases |path|
  {
    if |path| == 1 {
    } else {
      assert Follows(path[0], path[1], responses, stepForId);
      var tail := path[1..];
      forall i | 0 <= i < |tail| - 1 ensures Follows(tail[i], tail[i + 1], responses, stepForId) {
        assert Follows(path[i + 1], path[i + 2], responses, stepForId);
      }
      WalkIsUnique(path[1], responses, stepForId, fuel - 1, tail);
      assert path == [step] + tail;
    }
  }

  /** With no truthy answer for the top-most step, only that step is available. */
  lemma UnansweredRootOnly(root: InteractionStep, responses: Responses,
                           stepForId: string -> Option<InteractionStep>, fuel: nat)
    requires fuel > 0 && !HasAnswer(responses, root.id)
    ensures AvailableSteps(Some(root), responses, stepForId, fuel) == [root]
  {
  }

  /** With no answers recorded at all, only the top-most step is available. */
  lemma EmptyResponsesRootOnly(root: InteractionStep, stepForId: string -> Option<InteractionStep>, fuel: nat)
    requires fuel > 0
    ensures AvailableSteps(Some(root), map[], stepForId, fuel) == [root]
  {
  }

  // ---------------------------------------------------------------------------
  // Recorded answers

  /** The position of the last stored answer for `stepId`, if any. */
  function LastIndexFor(values: seq<QuestionResponseValue>, stepId: string): (r: Option<nat>)
    ensures r.Some? ==> r.value < |values| && values[r.value].interactionStepId == stepId
    ensures r.Some? ==> forall k :: r.value < k < |values| ==> values[k].interactionStepId != stepId
    ensures r.None? <==> forall k :: 0 <= k < |values| ==> values[k].interactionStepId != stepId
    decreases |values|
  {
    if |values| == 0 then None
    else if values[|values| - 1].interactionStepId == stepId then Some(|values| - 1)
    else LastIndexFor(values[..|values| - 1], stepId)
  }

  /**
    `getInitialQuestionResponses`: one entry per step id that has a stored
    answer, holding the value of its last stored answer.
   */
  function InitialQuestionResponses(values: seq<QuestionResponseValue>): (responses: Responses)
    ensures forall id :: id in responses <==> exists k :: 0 <= k < |values| && values[k].interactionStepId == id
    ensures forall id :: id in responses ==>
      var last := LastIndexFor(values, id);
      last.Some? && responses[id] == Some(values[last.value].value)
    decreases |values|
  {
    if |values| == 0 then map[]
    else
      var init := values[..|values| - 1];
      var last := values[|values| - 1];
      var earlier := InitialQuestionResponses(init);
      var updated := earlier[last.interactionStepId := Some(last.value)];
      forall id ensures id in updated <==>
        exists k :: 0 <= k < |values| && values[k].interactionStepId == id
      {
        if id in earlier {
          var k :| 0 <= k < |init| && init[k].interactionStepId == id;
          assert values[k] == init[k];
        }
        if exists k :: 0 <= k < |values| && values[k].interactionStepId == id {
          var k :| 0 <= k < |values| && values[k].interactionStepId == id;
          if k < |init| {
            assert init[k] == values[k];
          }
        }
      }
      updated
  }

  /** Sets each listed child that already has an entry to `null`. */
  function ClearPresent(responses: Responses, childIds: seq<string>): (r: Responses)
    ensures r.Keys == responses.Keys
    ensures forall id :: id in r && id in childIds ==> r[id] == None
    ensures forall id :: id in r && id !in childIds ==> r[id] == responses[id]
    decreases |childIds|
  {
    if |childIds| == 0 then responses
    else
      var first := childIds[0];
      var cleared := if first in responses then responses[first := None] else responses;
      assert forall id :: id in childIds <==> id == first || id in childIds[1..];
      ClearPresent(cleared, childIds[1..])
  }

  /**
    `handleQuestionResponseChange`: records the new answer for the step, then
    clears to `null` the answers of the step's children that have an entry.
    No other entry changes and no entry is added besides the step's own.
   */
  function ChangeResponse(responses: Responses, stepId: string, value: Option<string>, childIds: seq<string>)
    : (r: Responses)
    ensures r.Keys == responses.Keys + {stepId}
    ensures r[stepId] == if stepId in childIds then None else value
    ensures forall id :: id in r && id in childIds ==> r[id] == None
    ensures forall id :: id in r && id != stepId && id !in childIds ==> r[id] == responses[id]
  {
    ClearPresent(responses[stepId := value], childIds)
  }

  /**
    After an answer change, no child of the changed step keeps a truthy
    answer, so a walk reaching a child stops there.
   */
  lemma ChangeResponseStopsAtChildren(
    responses: Responses, stepId: string, value: Option<string>, childIds: seq<string>,
    child: InteractionStep, stepForId: string -> Option<InteractionStep>, fuel: nat)
    requires child.id in childIds && fuel > 0
    ensures !HasAnswer(ChangeResponse(responses, stepId, value, childIds), child.id)
    ensures Walk(child, ChangeResponse(responses, stepId, value, childIds), stepForId, fuel) == [child]
  {
  }

  /**
    Changing the answer of the top-most step to a truthy value whose option
    leads to a child makes the walk `[root, child]`: the child's own answer,
    and therefore its descendants on the old branch, are no longer followed.
   */
  lemma ChangeRootAnswerResetsBranch(
    root: InteractionStep, child: InteractionStep, responses: Responses, value: string, childIds: seq<string>,
    stepForId: string -> Option<InteractionStep>, fuel: nat)
    requires fuel >= 2 && value != "" && root.id !in childIds && child.id in childIds
    requires
      var i := FindOption(root.answerOptions, value);
      i.Some? && root.answerOptions[i.value].nextStepId.Some? &&
      stepForId(root.answerOptions[i.value].nextStepId.value) == Some(child)
    ensures AvailableSteps(Some(root), ChangeResponse(responses, root.id, Some(value), childIds), stepForId, fuel)
            == [root, child]
  {
    var updated := ChangeResponse(responses, root.id, Some(value), childIds);
    assert Follows(root, child, updated, stepForId);
    assert Stops(child, updated, stepForId);
    WalkIsUnique(root, updated, stepForId, fuel + 1, [root, child]);
    assert Walk(root, updated, stepForId, fuel) == [root] + Walk(child, updated, stepForId, fuel - 1);
  }

  // A three-step script root -> q1 -> q2, used by the lemmas below.
  const ScriptRoot := InteractionStep("root", [AnswerOption("yes", Some("q1"))])
  const ScriptQ1 := InteractionStep("q1", [AnswerOption("ok", Some("q2"))])
  const ScriptQ2 := InteractionStep("q2", [])

  function ScriptLookup(id: string): Option<InteractionStep> {
    if id == "q1" then Some(ScriptQ1) else if id == "q2" then Some(ScriptQ2) else None
  }

  lemma LinearScriptRootAnswered()
    ensures AvailableSteps(Some(ScriptRoot), map["root" := Some("yes")], ScriptLookup, 3) == [ScriptRoot, ScriptQ1]
  {
    var responses := map["root" := Some("yes")];
    assert FindOption(ScriptRoot.answerOptions, "yes") == Some(0);
    assert Walk(ScriptQ1, responses, ScriptLookup, 2) == [ScriptQ1];
  }

  lemma LinearScriptBothAnswered()
    ensures AvailableSteps(Some(ScriptRoot), map["root" := Some("yes"), "q1" := Some("ok")], ScriptLookup, 3)
            == [ScriptRoot, ScriptQ1, ScriptQ2]
  {
    var responses := map["root" := Some("yes"), "q1" := Some("ok")];
    assert FindOption(ScriptRoot.answerOptions, "yes") == Some(0);
    assert FindOption(ScriptQ1.answerOptions, "ok") == Some(0);
    assert Walk(ScriptQ2, responses, ScriptLookup, 1) == [ScriptQ2];
    assert Walk(ScriptQ1, responses, ScriptLookup, 2) == [ScriptQ1, ScriptQ2];
  }

  lemma LinearScriptRootChanged()
    ensures
      var changed := ChangeResponse(map["root" := Some("yes"), "q1" := Some("ok")], "root", Some("yes"), ["q1"]);
      AvailableSteps(Some(ScriptRoot), changed, ScriptLookup, 3) == [ScriptRoot, ScriptQ1]
  {
    var changed := ChangeResponse(map["root" := Some("yes"), "q1" := Some("ok")], "root", Some("yes"), ["q1"]);
    assert changed["root"] == Some("yes") && changed["q1"] == None;
    assert FindOption(ScriptRoot.answerOptions, "yes") == Some(0);
    assert Walk(ScriptQ1, changed, ScriptLookup, 2) == [ScriptQ1];
  }

  /**
    On the script root -> q1 -> q2: no answers give [root]; answering the
    root gives [root, q1]; answering both gives all three; changing the
    root's answer clears q1's and leaves [root, q1].
   */
  lemma LinearScriptWalk()
    ensures
      var answered := map["root" := Some("yes"), "q1" := Some("ok")];
      && AvailableSteps(Some(ScriptRoot), map[], ScriptLookup, 3) == [ScriptRoot]
      && AvailableSteps(Some(ScriptRoot), map["root" := Some("yes")], ScriptLookup, 3) == [ScriptRoot, ScriptQ1]
      && AvailableSteps(Some(ScriptRoot), answered, ScriptLookup, 3) == [ScriptRoot, ScriptQ1, ScriptQ2]
      && AvailableSteps(Some(ScriptRoot), ChangeResponse(answered, "root", Some("yes"), ["q1"]), ScriptLookup, 3)
         == [ScriptRoot, ScriptQ1]
  {
    EmptyResponsesRootOnly(ScriptRoot, ScriptLookup, 3);
    LinearScriptRootAnswered();
    LinearScriptBothAnswered();
    LinearScriptRootChanged();
  }
}

=== FILE: permissions.dfy ===
/**
  Organization roles and their ranking. A role's rank is its position in the
  hierarchy list; a name that is not in the list (including a missing role)
  ranks -1, below every listed role. The ranking is a total preorder on all
  role names: every unknown name shares rank -1.
 */
module Permissions {
  import opened Values

  const RoleHierarchy: seq<string> := ["SUSPENDED", "TEXTER", "SUPERVOLUNTEER", "ADMIN", "OWNER"]

  /** `xs.indexOf(x)`: the first position of `x` in `xs`, or -1. */
  function IndexOf(xs: seq<string>, x: string): (i: int)
    ensures -1 <= i < |xs|
    ensures i == -1 <==> x !in xs
    ensures 0 <= i ==> xs[i] == x && x !in xs[..i]
    decreases |xs|
  {
    if |xs| == 0 then -1
    else if xs[0] == x then 0
    else
      var j := IndexOf(xs[1..], x);
      assert j >= 0 ==> xs[..j + 1] == [xs[0]] + xs[1..][..j];
      if j == -1 then -1 else j + 1
  }

  /** Rank of a role name: its index in the hierarchy, -1 when unlisted. */
  function Rank(role: string): int {
    IndexOf(RoleHierarchy, role)
  }

  /** Rank of a role that may be missing (`undefined` has index -1). */
  function RankOf(role: Option<string>): int {
    match role
    case Some(r) => Rank(r)
    case None => -1
  }

  /**
    `isRoleGreater`: only a listed role can be greater, never than itself,
    and every listed role is greater than every unlisted one.
   */
  predicate IsRoleGreater(role1: string, role2: string): (greater: bool)
    ensures greater ==> role1 in RoleHierarchy && role1 != role2
    ensures role1 in RoleHierarchy && role2 !in RoleHierarchy ==> greater
  {
    Rank(role1) > Rank(role2)
  }

  /**
    `hasRoleAtLeast`: every role is at least itself and at least any unlisted
    role, and only a listed role is at least a listed one.
   */
  predicate HasRoleAtLeast(hasRole: string, wantsRole: string): (atLeast: bool)
    ensures hasRole == wantsRole ==> atLeast
    ensures wantsRole !in RoleHierarchy ==> atLeast
    ensures atLeast && wantsRole in RoleHierarchy ==> hasRole in RoleHierarchy
  {
    Rank(hasRole) >= Rank(wantsRole)
  }

  /** The ranks of the listed roles, lowest first. */
  lemma RanksOfListedRoles()
    ensures Rank("SUSPENDED") == 0 && Rank("TEXTER") == 1 && Rank("SUPERVOLUNTEER") == 2
    ensures Rank("ADMIN") == 3 && Rank("OWNER") == 4
  {
  }

  /** `isRoleGreater` is irreflexive, asymmetric and transitive. */
  lemma IsRoleGreaterStrictOrder(a: string, b: string, c: string)
    ensures !IsRoleGreater(a, a)
    ensures IsRoleGreater(a, b) ==> !IsRoleGreater(b, a)
    ensures IsRoleGreater(a, b) && IsRoleGreater(b, c) ==> IsRoleGreater(a, c)
  {
  }

  /**
    `hasRoleAtLeast` is a total preorder (reflexive, transitive, total) and is
    exactly the negation of `isRoleGreater` with the arguments swapped.
   */
  lemma HasRoleAtLeastPreorder(a: string, b: string, c: string)
    ensures HasRoleAtLeast(a, a)
    ensures HasRoleAtLeast(a, b) && HasRoleAtLeast(b, c) ==> HasRoleAtLeast(a, c)
    ensures HasRoleAtLeast(a, b) || HasRoleAtLeast(b, a)
    ensures HasRoleAtLeast(a, b) <==> !IsRoleGreater(b, a)
  {
  }

  /**
    An unlisted role ranks below SUSPENDED: a holder of an unlisted role has
    no listed role's permissions, while every listed role covers it.
   */
  lemma UnknownRoleRanksLowest(unknown: string, listed: string)
    requires unknown !in RoleHierarchy
    requires listed in RoleHierarchy
    ensures Rank(unknown) == -1 && Rank(unknown) < Rank("SUSPENDED")
    ensures !HasRoleAtLeast(unknown, listed)
    ensures HasRoleAtLeast(listed, unknown)
  {
  }

  /** OWNER is at least every role; every listed role is at least SUSPENDED. */
  lemma OwnerTopSuspendedBottom(role: string)
    ensures HasRoleAtLeast("OWNER", role)
    ensures role in RoleHierarchy ==> HasRoleAtLeast(role, "SUSPENDED")
  {
  }

  /**
    `roles.sort(isRoleGreater)[roles.length - 1]`. The comparator returns a
    boolean, so the order `sort` leaves the roles in depends on the JavaScript
    engine; `arranged` is that order, a rearrangement of `roles`. The result is
    the last role of the arrangement, or missing when there are no roles.
   */
  function GetHighestRole(roles: seq<string>, arranged: seq<string>): (highest: Option<string>)
    requires multiset(arranged) == multiset(roles)
    ensures highest.Some? <==> |roles| > 0
    ensures highest.Some? ==> highest.value in roles
  {
    assert |arranged| == |multiset(arranged)| == |roles|;
    if |arranged| == 0 then None
    else
      var last := arranged[|arranged| - 1];
      assert last in multiset(arranged);
      Some(last)
  }

  /**
    `hasRoleAtLeast(getHighestRole(roles), role)`: with no roles only unlisted
    roles are held; with some, the role is held iff the last role of the
    arrangement is at least it.
   */
  predicate HasRole(role: string, roles: seq<string>, arranged: seq<string>): (held: bool)
    requires multiset(arranged) == multiset(roles)
    ensures |roles| == 0 ==> (held <==> role !in RoleHierarchy)
    ensures |roles| > 0 ==> (held <==> HasRoleAtLeast(arranged[|arranged| - 1], role))
  {
    RankOf(GetHighestRole(roles, arranged)) >= Rank(role)
  }

  /** With no roles at all, no listed role is held. */
  lemma HasRoleEmpty(role: string)
    requires role in RoleHierarchy
    ensures !HasRole(role, [], [])
  {
  }

  /**
    An unlisted role counts as held even with no roles at all, since the
    missing highest role and the unlisted role both rank -1.
   */
  lemma HasRoleUnknownOnEmpty(role: string)
    requires role !in RoleHierarchy
    ensures HasRole(role, [], [])
  {
  }

  /**
    Holding a role means one of the user's roles ranks at least as high, as
    long as the role asked for is listed or the user has some role.
   */
  lemma HasRoleWitness(role: string, roles: seq<string>, arranged: seq<string>)
    requires multiset(arranged) == multiset(roles)
    requires role in RoleHierarchy || |roles| > 0
    requires HasRole(role, roles, arranged)
    ensures exists m :: m in roles && Rank(m) >= Rank(role)
  {
    var highest := GetHighestRole(roles, arranged);
    if highest.Some? {
      assert highest.value in roles;
    }
  }

  /** Holding a role implies holding every role it is at least. */
  lemma HasRoleDownwardClosed(role: string, lower: string, roles: seq<string>, arranged: seq<string>)
    requires multiset(arranged) == multiset(roles)
    requires HasRole(role, roles, arranged)
    requires HasRoleAtLeast(role, lower)
    ensures HasRole(lower, roles, arranged)
  {
  }
}

=== FILE: text.dfy ===
/**
  String operations the source borrows from JavaScript and SQL:
  `String.prototype.split(',')` with its inverse `join(',')`, and the
  character-by-character ordering a database applies to a text column
  under a binary collation.
 */
module Text {

  const Comma: char := ','

  /** `parts.join(',')`: the parts with one comma between neighbours. */
  function Join(parts: seq<string>): string
    requires |parts| >= 1
    decreases |parts|
  {
    if |parts| == 1 then parts[0] else parts[0] + [Comma] + Join(parts[1..])
  }

  /**
    `s.split(',')`: the maximal comma-free pieces of `s`, in order. As in
    JavaScript there is always at least one piece, adjacent commas give an
    empty piece, and joining the pieces back gives `s` again.
   */
  function Split(s: string): (parts: seq<string>)
    ensures |parts| >= 1
    ensures forall i :: 0 <= i < |parts| ==> Comma !in parts[i]
    ensures Join(parts) == s
    decreases |s|
  {
    if |s| == 0 then [""]
    else if s[0] == Comma then
      var rest := Split(s[1..]);
      assert s == "" + [Comma] + Join(rest);
      [""] + rest
    else
      var rest := Split(s[1..]);
      var first := [s[0]] + rest[0];
      assert first == [s[0]] + rest[0];
      if |rest| == 1 then
        assert s == [s[0]] + s[1..];
        [first]
      else
        assert Join(rest) == rest[0] + [Comma] + Join(rest[1..]);
        assert ([first] + rest[1..])[1..] == rest[1..];
        assert s == [s[0]] + s[1..];
        [first] + rest[1..]
  }

  /** A comma-free string splits into itself alone. */
  lemma {:induction false} SplitWithoutComma(s: string)
    requires Comma !in s
    ensures Split(s) == [s]
    decreases |s|
  {
    if |s| > 0 {
      assert Comma !in s[1..] by {
        forall i | 0 <= i < |s[1..]| ensures s[1..][i] != Comma {
          assert s[1..][i] == s[i + 1];
        }
      }
      SplitWithoutComma(s[1..]);
    }
  }

  /**
    Split is the only way to cut a string into comma-free pieces whose join is
    the string: any such list of pieces equals `Split(s)`.
   */
  lemma {:induction false} SplitUnique(s: string, parts: seq<string>)
    requires |parts| >= 1
    requires forall i :: 0 <= i < |parts| ==> Comma !in parts[i]
    requires Join(parts) == s
    ensures parts == Split(s)
    decreases |s|, |parts[0]|
  {
    if |parts| == 1 {
      SplitWithoutComma(s);
    } else if |parts[0]| == 0 {
      assert s == [Comma] + Join(parts[1..]);
      assert s[1..] == Join(parts[1..]);
      forall i | 0 <= i < |parts[1..]| ensures Comma !in parts[1..][i] {
        assert parts[1..][i] == parts[i + 1];
      }
      SplitUnique(s[1..], parts[1..]);
      assert parts == [""] + parts[1..];
    } else {
      var head := parts[0];
      var shorter := [head[1..]] + parts[1..];
      assert s == [head[0]] + (head[1..] + [Comma] + Join(parts[1..]));
      assert head[0] != Comma by { assert head[0] == parts[0][0]; }
      assert shorter[1..] == parts[1..];
      assert Join(shorter) == head[1..] + [Comma] + Join(parts[1..]);
      assert s[1..] == Join(shorter);
      forall i | 0 <= i < |shorter| ensures Comma !in shorter[i] {
        if i == 0 {
          forall k | 0 <= k < |head[1..]| ensures head[1..][k] != Comma {
            assert head[1..][k] == parts[0][k + 1];
          }
        } else {
          assert shorter[i] == parts[i];
        }
      }
      SplitUnique(s[1..], shorter);
      assert head == [head[0]] + head[1..];
    }
  }

  /**
    Character-wise ordering of strings, as a binary collation compares text:
    the empty string comes first, otherwise the first differing character
    decides.
   */
  predicate LexLe(a: string, b: string)
    decreases |a|
  {
    |a| == 0 || (|b| > 0 && (a[0] < b[0] || (a[0] == b[0] && LexLe(a[1..], b[1..]))))
  }

  lemma {:induction false} LexLeTotal(a: string, b: string)
    ensures LexLe(a, b) || LexLe(b, a)
    decreases |a|
  {
    if |a| > 0 && |b| > 0 && a[0] == b[0] {
      LexLeTotal(a[1..], b[1..]);
    }
  }

  lemma {:induction false} LexLeAntisymmetric(a: string, b: string)
    requires LexLe(a, b) && LexLe(b, a)
    ensures a == b
    decreases |a|
  {
    if |a| > 0 {
      LexLeAntisymmetric(a[1..], b[1..]);
      assert a == [a[0]] + a[1..] && b == [b[0]] + b[1..];
    }
  }

  lemma {:induction false} LexLeTransitive(a: string, b: string, c: string)
    requires LexLe(a, b) && LexLe(b, c)
    ensures LexLe(a, c)
    decreases |a|
  {
    if |a| > 0 && a[0] == b[0] && b[0] == c[0] {
      LexLeTransitive(a[1..], b[1..], c[1..]);
    }
  }
}

=== FILE: texter_contact_state.dfy ===
/**
  The decision logic of the texter's contact screen: whether the screen
  starts disabled, how a failed send is handled, which status buttons show,
  and how recorded answers are split into saves and deletions on submit.

  Whether the contact is inside texting hours comes from a helper whose code
  is not part of this model; it is the parameter `betweenTextingHours`.
  Navigation, timers and the network calls are reported as effects instead
  of being performed.
 */
module TexterContactState {
  import opened Values
  import opened InteractionSteps
  import opened Contacts

  const AssignmentChanged: string := "Your assignment has changed"
  const SomethingWentWrong: string := "Something went wrong!"

  /** The snackbar's action button; both titles lead back to the todo list. */
  datatype SnackbarAction = NoAction | BackToTodos(title: string)

  datatype ViewState = ViewState(
    disabled: bool,
    disabledText: string,
    notSendableButForceDisplay: bool,
    snackbarError: Option<string>,
    snackbarAction: SnackbarAction)

  /** What the contact screen is constructed from. */
  datatype ContactScreen = ContactScreen(
    assignmentId: string,
    contactAssignmentId: string,
    campaignIsArchived: bool,
    contactOptedOut: bool,
    betweenTextingHours: bool,
    forceDisabledDisplayIfNotSendable: bool)

  /**
    The state the screen starts in. A changed assignment or an archived
    campaign always disables it with the "assignment has changed" snackbar.
    Otherwise an opted-out contact, and then a contact outside texting hours,
    disables it, unless the screen is asked to display unsendable contacts, in
    which case it is only marked not sendable.
   */
  function InitialViewState(screen: ContactScreen): (s: ViewState)
    ensures screen.assignmentId != screen.contactAssignmentId || screen.campaignIsArchived ==>
      s.disabled && !s.notSendableButForceDisplay && s.disabledText == "" &&
      s.snackbarError == Some(AssignmentChanged) && s.snackbarAction == BackToTodos("Back to Todos")
    ensures screen.assignmentId == screen.contactAssignmentId && !screen.campaignIsArchived ==>
      s.snackbarError.None? && s.snackbarAction == NoAction &&
      (s.disabled <==> (screen.contactOptedOut || !screen.betweenTextingHours) && !screen.forceDisabledDisplayIfNotSendable) &&
      (s.notSendableButForceDisplay <==>
        (screen.contactOptedOut || !screen.betweenTextingHours) && screen.forceDisabledDisplayIfNotSendable)
    ensures !(s.disabled && s.notSendableButForceDisplay)
  {
    var sendable := ViewState(false, "Sending...", false, None, NoAction);
    if screen.assignmentId != screen.contactAssignmentId || screen.campaignIsArchived then
      ViewState(true, "", false, Some(AssignmentChanged), BackToTodos("Back to Todos"))
    else if screen.contactOptedOut then
      if !screen.forceDisabledDisplayIfNotSendable then sendable.(disabled := true, disabledText := "Skipping opt-out...")
      else sendable.(notSendableButForceDisplay := true)
    else if !screen.betweenTextingHours then
      if !screen.forceDisabledDisplayIfNotSendable then sendable.(disabled := true, disabledText := "Refreshing ...")
      else sendable.(notSendableButForceDisplay := true)
    else sendable
  }

  /** The reason shown while disabled names the first reason that applies. */
  lemma InitialDisabledTextPriority(screen: ContactScreen)
    requires screen.assignmentId == screen.contactAssignmentId && !screen.campaignIsArchived
    requires !screen.forceDisabledDisplayIfNotSendable
    ensures screen.contactOptedOut ==> InitialViewState(screen).disabledText == "Skipping opt-out..."
    ensures !screen.contactOptedOut && !screen.betweenTextingHours ==>
      InitialViewState(screen).disabledText == "Refreshing ..."
    ensures !screen.contactOptedOut && screen.betweenTextingHours ==> !InitialViewState(screen).disabled
  {
  }

  // ---------------------------------------------------------------------------
  // Send errors

  datatype SendError = SendError(status: int, message: string)

  /** What the screen does besides changing its state. */
  datatype Effect = NoEffect | GoBackToTodos | SkipContact | LogError

  datatype ErrorOutcome = ErrorOutcome(state: ViewState, effect: Effect)

  /**
    `handleSendMessageError`. 402 goes back to the todo list. 400 with the
    "assignment has changed" message shows it with a way back, without
    touching `disabled`. Any other 400 disables the screen with the message as
    its text and skips the contact; the snackbar is left as it was. Anything
    else shows "Something went wrong!".
   */
  function HandleSendMessageError(s: ViewState, e: SendError): (r: ErrorOutcome)
    ensures r.effect == GoBackToTodos <==> e.status == 402
    ensures r.effect == SkipContact <==> e.status == 400 && e.message != AssignmentChanged
    ensures r.effect == LogError <==> e.status != 402 && e.status != 400
    ensures e.status == 402 ==> r.state == s
    ensures e.status == 400 && e.message == AssignmentChanged ==>
      r.state == s.(snackbarError := Some(e.message), snackbarAction := BackToTodos("Back to todos"))
    ensures e.status == 400 && e.message != AssignmentChanged ==>
      r.state == s.(disabled := true, disabledText := e.message)
    ensures e.status != 402 && e.status != 400 ==>
      r.state == s.(snackbarError := Some(SomethingWentWrong)) && r.effect == LogError
  {
    if e.status == 402 then ErrorOutcome(s, GoBackToTodos)
    else if e.status == 400 then
      if e.message == AssignmentChanged then
        ErrorOutcome(s.(snackbarError := Some(e.message), snackbarAction := BackToTodos("Back to todos")), NoEffect)
      else
        ErrorOutcome(s.(disabled := true, disabledText := e.message), SkipContact)
    else ErrorOutcome(s.(snackbarError := Some(SomethingWentWrong)), LogError)
  }

  /**
    Handling a send error never re-enables the screen, and it disables it
    only for a 400 that is not an assignment change.
   */
  lemma SendErrorNeverEnables(s: ViewState, e: SendError)
    ensures s.disabled ==> HandleSendMessageError(s, e).state.disabled
    ensures HandleSendMessageError(s, e).state.disabled != s.disabled <==>
      !s.disabled && e.status == 400 && e.message != AssignmentChanged
  {
  }

  /**
    The two "not sendable" flags can end up both set: a screen that starts
    only marked not sendable is disabled by a rejected send.
   */
  lemma ForcedDisplayThenRejectedSend()
    ensures
      var screen := ContactScreen("a", "a", false, true, true, true);
      var s := InitialViewState(screen);
      var r := HandleSendMessageError(s, SendError(400, "Opted out"));
      !s.disabled && s.notSendableButForceDisplay && r.state.disabled && r.state.notSendableButForceDisplay
  {
  }

  // ---------------------------------------------------------------------------
  // Submitting a message or an opt-out

  /**
    The guard at the top of `handleMessageFormSubmit` and `handleOptOut`: a
    submission goes ahead only when the screen is not `disabled`, and it then
    disables the screen before sending. `notSendableButForceDisplay` is not
    consulted, so a submission reached through the Enter key, which does not
    go through the rendered buttons, still goes ahead on a screen that is
    only marked not sendable.
   */
  function BeginSubmit(s: ViewState): (started: Option<ViewState>)
    ensures started.None? <==> s.disabled
    ensures started.Some? ==> started.value == s.(disabled := true)
  {
    if s.disabled then None else Some(s.(disabled := true))
  }

  /** A second submission right after one that went ahead is stopped: no double send. */
  lemma SubmitOnlyOnce(s: ViewState)
    ensures BeginSubmit(s).Some? ==> BeginSubmit(BeginSubmit(s).value).None?
    ensures BeginSubmit(s).Some? ==> SendControlsDisabled(BeginSubmit(s).value)
  {
  }

  /**
    On the starting screen, a submission is stopped exactly for a changed
    assignment, an archived campaign, or an opted-out or out-of-hours contact
    that is not displayed anyway. An opted-out or out-of-hours contact that is
    displayed has inert send buttons, yet a submission still goes ahead.
   */
  lemma InitialSubmitGuard(screen: ContactScreen)
    ensures BeginSubmit(InitialViewState(screen)).None? <==>
      screen.assignmentId != screen.contactAssignmentId || screen.campaignIsArchived ||
      ((screen.contactOptedOut || !screen.betweenTextingHours) && !screen.forceDisabledDisplayIfNotSendable)
    ensures screen.assignmentId == screen.contactAssignmentId && !screen.campaignIsArchived &&
            (screen.contactOptedOut || !screen.betweenTextingHours) && screen.forceDisabledDisplayIfNotSendable ==>
      SendControlsDisabled(InitialViewState(screen)) && BeginSubmit(InitialViewState(screen)).Some?
  {
  }

  // ---------------------------------------------------------------------------
  // Status buttons

  datatype ToggleButton = Reopen | SkipReply

  /** `renderNeedsResponseToggleButton`. */
  function NeedsResponseToggle(messageStatus: string): (b: Option<ToggleButton>)
    ensures b == Some(Reopen) <==> messageStatus == Closed
    ensures b == Some(SkipReply) <==> messageStatus == NeedsResponse
  {
    if messageStatus == Closed then Some(Reopen)
    else if messageStatus == NeedsResponse then Some(SkipReply)
    else None
  }

  /** The status the Reopen button writes back. */
  const ReopenStatus: string := NeedsResponse

  /**
    `renderCorrectSendButton`: the arrow send button shows once the contact
    has been messaged and is not closed; it never shows beside Reopen, and
    beside a toggle only beside Skip Reply.
   */
  predicate ShowsSendArrow(messageStatus: string): (shows: bool)
    ensures messageStatus == NeedsMessage || messageStatus == Closed ==> !shows
    ensures shows ==> NeedsResponseToggle(messageStatus) != Some(Reopen)
    ensures shows && NeedsResponseToggle(messageStatus).Some? ==> messageStatus == NeedsResponse
  {
    messageStatus == Messaged || messageStatus == Convo || messageStatus == NeedsResponse
  }

  /**
    The rendered send buttons and dialogs with a `disabled` binding are inert
    while the screen is disabled or merely displayed.
   */
  predicate SendControlsDisabled(s: ViewState) {
    s.disabled || s.notSendableButForceDisplay
  }

  /**
    The rendered send buttons start inert exactly when the contact cannot be
    texted: a changed assignment, an archived campaign, an opted-out contact,
    or a contact outside texting hours. Asking to display unsendable contacts
    changes whether the rendered send buttons and dialogs are inert, but not
    whether they start inert.
   */
  lemma InitialSendControls(screen: ContactScreen)
    ensures SendControlsDisabled(InitialViewState(screen)) <==>
      screen.assignmentId != screen.contactAssignmentId || screen.campaignIsArchived ||
      screen.contactOptedOut || !screen.betweenTextingHours
    ensures SendControlsDisabled(InitialViewState(screen)) ==
            SendControlsDisabled(InitialViewState(screen.(forceDisabledDisplayIfNotSendable :=
                                                          !screen.forceDisabledDisplayIfNotSendable)))
  {
  }

  /**
    A send error never makes inert send buttons usable again; it makes usable
    ones inert only for a 400 that is not an assignment change.
   */
  lemma SendErrorKeepsControlsDisabled(s: ViewState, e: SendError)
    ensures SendControlsDisabled(s) ==> SendControlsDisabled(HandleSendMessageError(s, e).state)
    ensures SendControlsDisabled(HandleSendMessageError(s, e).state) != SendControlsDisabled(s) <==>
      !SendControlsDisabled(s) && e.status == 400 && e.message != AssignmentChanged
  {
  }

  /**
    Over the five message statuses: the arrow shows for every status except
    needsMessage and closed, and reopening a closed contact brings the arrow
    and the Skip Reply button.
   */
  lemma StatusButtons(messageStatus: string)
    requires messageStatus in [NeedsMessage, NeedsResponse, Messaged, Convo, Closed]
    ensures ShowsSendArrow(messageStatus) <==> messageStatus != NeedsMessage && messageStatus != Closed
    ensures NeedsResponseToggle(messageStatus).Some? ==> messageStatus !in [NeedsMessage, Messaged, Convo]
    ensures NeedsResponseToggle(messageStatus) == Some(Reopen) ==>
      ShowsSendArrow(ReopenStatus) && NeedsResponseToggle(ReopenStatus) == Some(SkipReply)
  {
  }

  // ---------------------------------------------------------------------------
  // Submitting answers

  datatype QuestionResponseObject = QuestionResponseObject(interactionStepId: string, campaignContactId: string, value: string)

  datatype SurveyMutation =
    | UpdateQuestionResponses(questionResponses: seq<QuestionResponseObject>, campaignContactId: string)
    | DeleteQuestionResponses(interactionStepIds: seq<string>, campaignContactId: string)

  datatype Submission = Submission(updates: seq<QuestionResponseObject>, deletionIds: seq<string>)

  /**
    The partition `handleSubmitSurveys` makes, over the step ids in the order
    the object's keys enumerate: a truthy answer becomes a saved response for
    the contact, any other answer a deletion.
   */
  method PartitionResponses(responses: Responses, keys: seq<string>, contactId: string) returns (sub: Submission)
    requires forall id :: id in keys <==> id in responses
    requires forall i, j :: 0 <= i < j < |keys| ==> keys[i] != keys[j]
    ensures |sub.updates| + |sub.deletionIds| == |keys|
    ensures forall u :: u in sub.updates ==>
      u.campaignContactId == contactId && HasAnswer(responses, u.interactionStepId) &&
      responses[u.interactionStepId] == Some(u.value)
    ensures forall id :: id in sub.deletionIds ==> id in responses && !HasAnswer(responses, id)
    ensures forall id :: id in responses ==>
      (HasAnswer(responses, id) <==> exists u :: u in sub.updates && u.interactionStepId == id) &&
      (!HasAnswer(responses, id) <==> id in sub.deletionIds)
  {
    var updates: seq<QuestionResponseObject> := [];
    var deletionIds: seq<string> := [];
    var i := 0;
    while i < |keys|
      invariant 0 <= i <= |keys|
      invariant |updates| + |deletionIds| == i
      invariant forall u :: u in updates ==>
        u.campaignContactId == contactId && HasAnswer(responses, u.interactionStepId) &&
        responses[u.interactionStepId] == Some(u.value)
      invariant forall id :: id in deletionIds ==> id in responses && !HasAnswer(responses, id)
      invariant forall k :: 0 <= k < i && HasAnswer(responses, keys[k]) ==>
        exists u :: u in updates && u.interactionStepId == keys[k]
      invariant forall k :: 0 <= k < i && !HasAnswer(responses, keys[k]) ==> keys[k] in deletionIds
    {
      var id := keys[i];
      var value := responses[id];
      if Truthy(value) {
        var u := QuestionResponseObject(id, contactId, value.value);
        updates := updates + [u];
        assert u in updates;
      } else {
        deletionIds := deletionIds + [id];
      }
      i := i + 1;
    }
    sub := Submission(updates, deletionIds);
    forall id | id in responses
      ensures HasAnswer(responses, id) <==> exists u :: u in sub.updates && u.interactionStepId == id
      ensures !HasAnswer(responses, id) <==> id in sub.deletionIds
    {
      var k :| 0 <= k < |keys| && keys[k] == id;
    }
  }

  /**
    The mutations sent on submit: saving the truthy answers, then deleting the
    others, each only when its list is non-empty.
   */
  function SurveyMutations(sub: Submission, contactId: string): (ms: seq<SurveyMutation>)
    ensures UpdateQuestionResponses(sub.updates, contactId) in ms <==> |sub.updates| > 0
    ensures DeleteQuestionResponses(sub.deletionIds, contactId) in ms <==> |sub.deletionIds| > 0
    ensures forall m :: m in ms ==>
      m == UpdateQuestionResponses(sub.updates, contactId) || m == DeleteQuestionResponses(sub.deletionIds, contactId)
    ensures |ms| == 2 ==> ms[0].UpdateQuestionResponses? && ms[1].DeleteQuestionResponses?
  {
    var update := UpdateQuestionResponses(sub.updates, contactId);
    var delete := DeleteQuestionResponses(sub.deletionIds, contactId);
    (if |sub.updates| > 0 then [update] else []) + (if |sub.deletionIds| > 0 then [delete] else [])
  }
}

=== FILE: values.dfy ===
/**
  Values shared by every part of the model: an optional value standing for
  JavaScript's `null`/`undefined`, and the truthiness tests the source relies on.
  In JavaScript `''`, `0`, `false`, `null` and `undefined` are falsy; the
  predicates below spell that rule out for the value shapes the model uses.
 */
module Values {

  /** A value that may be absent (`null` or `undefined` in the source). */
  datatype Option<+T> = None | Some(value: T)

  /** A nullable string is truthy when it is present and non-empty. */
  predicate Truthy(s: Option<string>) {
    s.Some? && s.value != ""
  }

  /** A nullable number is truthy when it is present and non-zero. */
  predicate TruthyInt(n: Option<int>) {
    n.Some? && n.value != 0
  }

  /** A nullable boolean is truthy only when it holds `true`. */
  predicate TruthyBool(b: Option<bool>) {
    b == Some(true)
  }
}
